=== FILE: README.md ===
# yrv-container resolution engine in Dafny

A model of `YRV\Container\Container` (src/Container.php), a small PSR-11
dependency-injection container for PHP. Values are registered under string ids
in four maps: `set` (definitions), `factory`, `file` and `alias`. `get` resolves
an id and caches the result, except a non-literal source that came from
`factory`. Resolution
turns the registered source into a value:

- a literal comes back as it is;
- a class name is instantiated through reflection;
- a closure is invoked through reflection, its parameters bound first;
- a function name is handed to a method the class does not declare.

The parameters of constructors and callables are filled from named arguments,
then from defaults, then by a nested `get` of the declared type. `call` invokes
a registered callable with positional arguments.

The model keeps the container's behaviour as written, including its defects:

- aliases are followed one hop only;
- an array callable is rejected at line 161;
- a function-name string reaches the undeclared `resolveFunction`;
- the circular-dependency check at line 194 compares the previous injected
  parameter's type with the most recent cache-missing id.

## Layout

| file | module | contents |
|---|---|---|
| php.dfy | `Php` | PHP 8 `is_numeric` on strings; decimal rendering of integers (array-key coercion) |
| values.dfy | `Values` | PHP values, reflected parameters, the runtime environment, the exceptions |
| registry.dfy | `Registry` | container state, the registration methods, `has`, `getSource` |
| engine.dfy | `Engine` | `get`, `resolve`, `resolveObject`, `resolveCallable`, `resolveParameters`, `call` |
| registry_props.dfy | `RegistryProps` | lemmas about registration, `has` and alias lookup |
| binder_props.dfy | `BinderProps` | lemmas about the parameter binder |
| engine_props.dfy | `EngineProps` | lemmas about caching, factories, aliases, errors and `call` |
| scenarios.dfy | `Scenarios` | the repository's test cases, stated on a concrete runtime |

### How the model is built

- **State.** The container's state is an immutable `State`: four registration
  maps, the cache, the typed property `processedResolved` (an `Option`, since
  it starts uninitialised) and the history of calls into user code.
- **Results.** Every engine operation returns the outcome together with the new
  state, also on failure. PHP exceptions do not undo the cache writes of the
  nested `get`s that ran before them.
- **Recursion.** `get` → `resolve` → `resolveObject`/`resolveCallable` →
  `resolveParameters` → `get` is mutually recursive. A `fuel` bound is spent on
  each nested `get`; running out is the separate outcome `OutOfFuel`.
- **The runtime.** Reflection, `class_exists`, `function_exists`, `is_callable`,
  `file_exists` with `include`, and user code are facts of an abstract `Env`.
  User code is an oracle from the call history to a returned value or a thrown
  exception, so each call is recorded in the state's history.

## Model

| member | source | states |
|---|---|---|
| Php.MantissaMatchesSpec | src/Container.php:89 | the digits-and-point search accepts a string exactly when some split of it is digits, one point, digits, with at least one digit |
| Php.UnsignedNumberMatchesSpec | src/Container.php:89 | the number grammar `is_numeric` applies after the sign accepts a string exactly when some split of it is a mantissa, an exponent marker and a signed digit run, or it is a mantissa alone |
| Php.MantissaHasNoMarker | src/Container.php:89 | a mantissa never contains `e` or `E`, so the first marker is the only possible split |
| Php.NumericStart | src/Container.php:89 | a string `is_numeric` accepts starts, after leading blanks, with a digit, a sign or a point |
| Php.LetterFirstNotNumeric | src/Container.php:89 | a string starting with a letter is never numeric, so class names and ordinary strings are not treated as numbers |
| Php.DigitsRoundTrip | src/Container.php:219-224 | the decimal rendering used for integer array keys is a non-empty digit string whose value is the integer |
| Php.DecimalInjective | src/Container.php:219-224 | distinct integers used as alias targets address distinct keys |
| Php.DecimalIsNumeric | src/Container.php:89 | every rendered integer is a numeric string |
| Values.KeyOf | src/Container.php:216-219 | an alias target is a valid array key exactly when it is not an array, object or closure; otherwise `array_key_exists` throws |
| Registry.New | src/Container.php:19-23 | after construction `isset` holds for exactly the container's class and interface ids, both mapped to the container; nothing is registered and `processedResolved` is unset |
| Registry.Set | src/Container.php:30-33 | `set` binds the id in the definitions and changes nothing else |
| Registry.Factory | src/Container.php:35-38 | `factory` binds the id in the factories and changes nothing else |
| Registry.File | src/Container.php:40-43 | `file` binds the id in the files and changes nothing else |
| Registry.Alias | src/Container.php:25-28 | `alias` binds the id in the aliases and changes nothing else |
| Registry.Target | src/Container.php:215-217 | the looked-up key is the id itself unless a non-null alias is set, then the alias target |
| Registry.GetSource | src/Container.php:213-237 | `getSource` fails only with a TypeError, a ContainerException, or an exception thrown by an included file, the last only on the file branch; it reports a factory only after a successful key lookup |
| RegistryProps.SetKeepsOtherIds | src/Container.php:250-259 | after `set`, `has` is unchanged for every other id and true for the id when the source is not null |
| RegistryProps.RegisterKeepsOtherIds | src/Container.php:250-259 | the same for `factory`, `file` and `alias` |
| RegistryProps.NullEntryIsAbsent | src/Container.php:250-259 | a null registration leaves `has` false, because `has` uses `isset` |
| RegistryProps.NewHasOnlySelf | src/Container.php:19-23 | a new container `has` exactly its own two ids |
| RegistryProps.OneAliasHop | src/Container.php:215-236 | an alias whose target has no definition, factory or file yields a null source, whatever alias the target carries |
| RegistryProps.AliasShadowsOwnEntries | src/Container.php:215-220 | when an alias is set, the id's own definition is never read |
| RegistryProps.AliasToArrayIsTypeError | src/Container.php:216-219 | an alias to an array makes `getSource` throw a TypeError |
| RegistryProps.SourcePrecedence | src/Container.php:219-235 | a definition beats a factory, which beats a file; a file name that is an array or object is a TypeError, a missing file throws a ContainerException, an included file that throws lets its exception escape; the factory flag is raised exactly on the factory branch |
| RegistryProps.ArrayFileNameIsTypeError | src/Container.php:224-225 | a file registered under an array name makes `file_exists` throw a TypeError |
| RegistryProps.IncludeThrowEscapes | src/Container.php:234 | an exception thrown while including a registered file escapes `getSource` unwrapped |
| Engine.Classify | src/Container.php:89-119 | the branch `resolve` takes: numbers, null and objects are literals; a non-numeric string is a class name exactly when the class exists, else a function name exactly when the function exists, else a literal; closures are invoked; an array is invoked exactly when `is_callable` accepts it and is "type undefined" otherwise; booleans are "type undefined" |
| Engine.Get | src/Container.php:70-78 | a cached id is returned with the state untouched; otherwise `processedResolved` is set; earlier cache entries and registrations are kept; a success is cached unless it came from a non-literal factory; NotFound only for an id `has` rejects |
| Engine.Resolve | src/Container.php:80-126 | `resolve` keeps every existing cache entry other than the requested id, caches whatever a non-factory or literal source produced, and raises NotFound if and only if `has` rejects the id, then with the state untouched |
| Engine.ResolveObject | src/Container.php:128-153 | a constructed object belongs to the requested class, which exists and is instantiable; the cache only grows |
| Engine.ResolveCallable | src/Container.php:155-166 | arrays and objects are rejected with a TypeError without touching the state (see Left out for objects with `__toString`); the cache only grows |
| Engine.BindAndInvoke | src/Container.php:163-165 | binding then invoking keeps registrations and cached entries and never raises NotFound |
| Engine.Bind | src/Container.php:173-211 | the binder yields at most one argument per parameter, keeps every cached entry and never lets NotFound escape |
| Engine.Call | src/Container.php:45-58 | `call` leaves the registrations, the cache and `processedResolved` alone, adds at most one call to the history and never raises NotFound |
| BinderProps.FirstStop | src/Container.php:177-192 | the position where binding stops lies within the parameter list |
| BinderProps.FirstStopIsFirst | src/Container.php:177-192 | that position is the first parameter with no named argument, no default and the optional flag: every earlier parameter goes on and the one there stops |
| BinderProps.BindShape | src/Container.php:177-208 | a successful binding has one argument per parameter up to the first optional parameter without argument or default; a named argument wins (even null), then the default; every injected type was accepted by `has` |
| BinderProps.BindInjectsGet | src/Container.php:201-204 | every injected argument is the value `get` caches for the parameter's type: when that type was cached before binding or has a cacheable source, the cache after binding maps the type to exactly the argument passed at that position |
| BinderProps.BindLength | src/Container.php:177-192 | the number of bound arguments is the position of the first stopping parameter |
| BinderProps.BindPure | src/Container.php:177-192 | when no parameter before the stop needs injection, the binder leaves the state untouched and returns the named arguments and defaults in order |
| BinderProps.BindThroughFirstInjection | src/Container.php:177-204 | for the first parameter to inject, whatever its type's source (a non-literal factory included): a successful binding is the named arguments and defaults before it, then exactly the value the nested `get` of its type returned, then the binding of the remaining parameters in the state that `get` left with `$name` set to the type |
| BinderProps.SingleInjection | src/Container.php:201-204 | a lone parameter to inject is bound to what the nested `get` of its type returns, in the state that `get` leaves |
| BinderProps.SingleInjectionOutOfFuel | src/Container.php:201-204 | when that nested `get` does not finish, neither does the binder |
| BinderProps.UnregisteredTypeRaises | src/Container.php:201-207 | a parameter to inject whose type `has` rejects raises "Can not resolver parameter" |
| BinderProps.SecondInjectionSeesCircular | src/Container.php:194-203 | when the first injected parameter's `get` leaves `processedResolved` equal to its type, the next injected parameter raises "Circular dependency" whatever its type |
| BinderProps.LiteralFirstDependencyBlocksSecond | src/Container.php:194-203 | a literal, not yet cached, as the first injected dependency triggers that spurious circular error |
| EngineProps.NewResolvesSelf | src/Container.php:19-23 | a new container returns itself for its class and its interface |
| EngineProps.ReregisterResolvedIsInvisible | src/Container.php:72-74 | registering again an id that is already cached does not change what `get` returns |
| EngineProps.NotFoundIffMissing | src/Container.php:82-84 | `get` raises NotFound if and only if the id is neither cached nor registered, and then leaves the cache alone |
| EngineProps.LiteralCachedEvenForFactory | src/Container.php:89-92 | a literal source is cached under the requested id even when it was registered as a factory |
| EngineProps.UndefinedTypeRaises | src/Container.php:104-108 | a boolean or a non-callable array raises "type is undefined" and caches nothing |
| EngineProps.ArrayCallableRewrapped | src/Container.php:109-118 | a callable array fails at line 161 and the catch rewraps the TypeError in a ContainerException |
| EngineProps.FunctionNameHitsMissingMethod | src/Container.php:97-98 | a string naming a function calls the undeclared `resolveFunction` |
| EngineProps.SingletonStable | src/Container.php:121-123 | once `get` succeeds for a cacheable id, every later `get` returns the same value, ignores its arguments and changes nothing |
| EngineProps.GetLeavesFactoryUncached | src/Container.php:121-123 | a factory with a non-literal source never enters the cache, however deep the resolution that reaches it |
| EngineProps.ResolveLeavesFactoryUncached | src/Container.php:121-123 | the same for `resolve` |
| EngineProps.ObjectLeavesFactoryUncached | src/Container.php:146-152 | the same for `resolveObject` |
| EngineProps.CallableLeavesFactoryUncached | src/Container.php:155-166 | the same for `resolveCallable` |
| EngineProps.BindLeavesFactoryUncached | src/Container.php:201-204 | the same for the binder's nested `get`s |
| EngineProps.ClosureBindsThenInvokes | src/Container.php:155-165 | a closure is classified as callable, and resolving it binds its parameters and then invokes it once with the bound arguments in the state the binding left |
| EngineProps.FactoryClosureReinvokes | src/Container.php:109-125 | a factory closure whose parameters bind is invoked on every `get` with the bound arguments, after the calls of the nested `get`s; the cache is what binding left, with nothing stored under the id; a throw comes back rewrapped |
| EngineProps.ClosureWithoutParams | src/Container.php:155-166 | a closure without parameters is invoked once with no arguments |
| EngineProps.DefinitionClosureCachesOnce | src/Container.php:109-125 | a closure registered with `set` whose parameters bind is invoked once with the bound arguments and its result cached under the id |
| EngineProps.AliasCachedUnderRequestedId | src/Container.php:121-123 | through an alias to a closure whose parameters bind, the result is cached under the alias id; the target id is cached afterwards only if a nested `get` cached it |
| EngineProps.AliasOfAliasIsNull | src/Container.php:215-236 | an alias of an alias resolves to null and caches null |
| EngineProps.SourceFailureEscapes | src/Container.php:86-87 | any `getSource` failure, an include's exception among them, escapes `get` unwrapped, with only `processedResolved` changed |
| EngineProps.ClassWithoutCtorResolves | src/Container.php:146-148 | a class without a constructor, registered with `set`, is instantiated once with no arguments, which cannot throw, and the instance is cached under the id |
| EngineProps.ObjectBindsThenConstructs | src/Container.php:146-152 | resolving an instantiable class with a constructor binds its parameters and, on success, constructs it once with the bound arguments in the state the binding left; a failed binding is the outcome |
| EngineProps.ClassWithOneDependency | src/Container.php:146-152 | a constructor with one parameter to inject receives what the nested `get` returns; the instance is built after everything that `get` did and cached under the id |
| EngineProps.ObjectFollowsBinder | src/Container.php:150-152 | when binding the constructor's parameter does not finish, neither does the `get` of the class |
| EngineProps.ClosureBindErrorRewrapped | src/Container.php:111-118 | a closure whose parameters cannot be bound fails inside the try, so the binder's error comes back wrapped in a ContainerException for the id |
| EngineProps.SelfDependencyExhaustsFuel | src/Container.php:194-203 | a class whose constructor needs an instance of itself escapes the circular check and recurses without end |
| EngineProps.CallIgnoresCache | src/Container.php:45-58 | `call` neither reads nor writes the cache or `processedResolved` |
| EngineProps.CallUnregisteredNotCallable | src/Container.php:48-55 | `call` on an id with no registration raises "is not callable", even when the id is cached |
| EngineProps.CallInvokesPositionally | src/Container.php:57 | a callable source is called with the positional arguments as given, bypassing the binder, and `call` returns what `call_user_func` returned or lets its exception escape unwrapped |
| Scenarios.ScalarRoundTrip | tests/BaseTest.php:13-18 | a registered string comes back unchanged |
| Scenarios.SingletonClosure | tests/BaseTest.php:27-36 | a `set` closure counting its calls returns 0 twice and runs once |
| Scenarios.FactoryClosure | tests/BaseTest.php:38-47 | a factory closure returns 0 then 1, receiving the container for its ContainerInterface parameter |
| Scenarios.ClassNameIsClass | src/Container.php:94-95 | a registered class name starting with a capital letter is constructed |
| Scenarios.WordIsLiteral | src/Container.php:100-102 | a string starting with a letter that names no class or function is returned as a literal |
| Scenarios.ClassWithoutDependency | tests/ClassesTest.php:17-23 | FooInterface registered as Foo yields a Foo |
| Scenarios.FooBuiltForBar | tests/ClassesTest.php:25-32 | the nested `get` of FooInterface builds a Foo first and caches it |
| Scenarios.ClassWithDependency | tests/ClassesTest.php:25-32 | BarInterface yields a Bar built after its Foo, both cached |
| Scenarios.NamedArgumentsAndDefault | tests/FunctionsTest.php:26-35 | named arguments fill the first two parameters and the default fills the third |
| Scenarios.NullDefaultPassed | tests/ParamsResolveTest.php:23-31 | a parameter declared `= null` receives null |
| Scenarios.VariadicTruncates | src/Container.php:185-192 | for a closure with a defaulted parameter and then a variadic one, the default is passed and the variadic parameter, having no default, ends the argument list |
| Scenarios.StringValueSource | tests/ParamsResolveTest.php:57-67 | the type `string` is registered as a plain word, which resolves as a literal and is not yet cached |
| Scenarios.CircularBinding | tests/ParamsResolveTest.php:57-67 | binding `string $param1, string $param2` raises "Circular dependency of [string]" |
| Scenarios.SecondStringParameterIsCircular | tests/ParamsResolveTest.php:57-67 | through `get`, that error is rewrapped under the requested id |
| Scenarios.TwoHopAliasIsNull | tests/AliasTest.php:21-30 | in this revision an alias of an alias yields null |
| Scenarios.StaticMethodArrayFails | tests/AliasTest.php:11-19 | in this revision a static-method array fails with a rewrapped TypeError |
| Scenarios.CallFileClosure | tests/BaseTest.php:56-63 | a file yielding a closure is called with the given arguments |
| Scenarios.CallOwnIdNotCallable | src/Container.php:45-55 | `call` of the container's own id is "not callable" |
| Scenarios.ResolveCallableBeforeAnyGet | tests/ParamsResolveTest.php:12-21 | injecting before any `get` reads the uninitialised `processedResolved` and raises an Error |

## Left out

- Reflection, `class_exists`, `function_exists`, `is_callable`, `file_exists` and
  `include` are facts of an abstract environment; the model does not evaluate
  PHP source.
- User code (constructors, closures, functions) is an oracle from the call
  history to a result or a thrown exception.
- Registry.GetSource: an included file is a fixed map from file name to a
  value or a thrown exception; what it does does not depend on the call
  history and is not recorded in it.
- Engine.Get: user code never calls back into the container. The oracle
  returns a value or a throw and cannot run `set`, `alias`, `get` or
  `call`, although the container is injected into user closures
  (tests/BaseTest.php:41). That registrations are kept, and the `Evolves`
  frame of every engine operation, hold only under this assumption.
- Warnings are dropped. Reading an undefined variable (`$name` at
  src/Container.php:143 and 194, `$source` at line 236) raises an E_WARNING
  that the model treats as a silent null. Under an error handler that turns
  warnings into exceptions, as PHPUnit 9 does by default, line 194 would
  throw on the first injected parameter of every binding instead.
- PHP's weak-mode coercion of arguments is not modelled: a bound argument
  whose type does not match its parameter is the oracle's to reject.
- The `print_r` at line 206 writes to standard output and is left out.
- Exception messages are left out; errors are identified by kind and the ids
  they mention.
- EngineProps.FactoryClosureReinvokes: the catch at src/Container.php:113-117
  splices the caught message into sprintf's format string. A message holding
  a `%` conversion (`"50% done"`) makes sprintf throw an ArgumentCountError or
  a ValueError from inside the catch, which escapes unwrapped. The model has
  no messages and always rewraps, so "a throw comes back rewrapped" holds only
  for messages without a `%`.
- EngineProps.ClosureBindErrorRewrapped: the same format-string splice; a
  nested error whose message holds a `%`, such as a FileMissing whose file
  name or id holds one (lines 226-232), escapes unwrapped in PHP but is
  rewrapped in the model.
- Engine.ResolveCallable: every object is a TypeError for ReflectionFunction
  at line 161. Without `strict_types` an object with `__toString` is coerced to
  a string, which then raises a ReflectionException or, when it names a
  function, binds and invokes that function; objects with `__toString` are not
  modelled.
- Registry.GetSource: every object used as a file name is a TypeError for
  `file_exists`; an object with `__toString`, which PHP would accept, is not
  modelled.
- Engine.Get: `get` takes any PHP value as its id; the model takes strings,
  which is what `has` and the binder pass.
- Engine.Get: unbounded recursion is a fatal error in PHP; the model stops
  after `fuel` nested `get`s with `OutOfFuel`, which no catch rewraps.
- Arrays are lists. String-keyed arrays matter only as non-callables, and the
  model treats every array other than a two-element method reference that way.
- Integers are unbounded and floats are reals: there is no 64-bit overflow, NaN
  or infinity. A float alias target is truncated as PHP does.
- Class and function names are matched exactly; PHP's case-insensitive lookup
  is part of the environment.
- Interfaces are not classes: `class_exists` of an interface is false, so an
  interface registered as its own source resolves to the string.
- `unset`, multi-hop aliases, `RecursiveContainerException` and a public
  `resolve` appear in the tests but not in this revision of src/Container.php.
  The scenarios state what this revision does there: `TwoHopAliasIsNull`,
  `StaticMethodArrayFails`, `CircularBinding` and `ResolveCallableBeforeAnyGet`.
  Where the tests and the code disagree, the model follows the code.
- Scenarios named after tests that call the missing public `resolve` go through
  `get` or `resolveCallable` instead.

=== FILE: binder_props.dfy ===
/**
  Properties of the parameter binder `resolveParameters`
  (src/Container.php:173-211).
 */
module BinderProps {
  import opened Values
  import opened Registry
  import opened Engine

  /** Where the binder stops when nothing fails: the first parameter with no
      argument, no default and the optional flag, or the end of the list. */
  function FirstStop(ps: seq<Param>, args: map<string, Value>): (n: nat)
    ensures n <= |ps|
  {
    if ps == [] then 0 else if Stops(ps[0], args) then 0 else 1 + FirstStop(ps[1..], args)
  }

  /** The stop position is the first stopping parameter: every earlier
      parameter goes on, and the one there stops. */
  lemma {:induction false} FirstStopIsFirst(ps: seq<Param>, args: map<string, Value>)
    ensures forall i :: 0 <= i < FirstStop(ps, args) ==> !Stops(ps[i], args)
    ensures FirstStop(ps, args) < |ps| ==> Stops(ps[FirstStop(ps, args)], args)
    decreases |ps|
  {
    if ps != [] && !Stops(ps[0], args) {
      FirstStopIsFirst(ps[1..], args);
      forall i | 1 <= i < FirstStop(ps, args) ensures !Stops(ps[i], args) {
        assert ps[i] == ps[1..][i - 1];
      }
    }
  }

  /** The arguments a binder that never consults the container produces. */
  function PlainBind(ps: seq<Param>, args: map<string, Value>): seq<Value> {
    if ps == [] then []
    else if ps[0].name in args then [args[ps[0].name]] + PlainBind(ps[1..], args)
    else if ps[0].default.Some? then [ps[0].default.value] + PlainBind(ps[1..], args)
    else []
  }

  /** The shape of a successful binding: one argument per parameter up to the
      first stopping parameter; a named argument wins (even a null one), then
      the default. */
  predicate Shaped(ps: seq<Param>, args: map<string, Value>, xs: seq<Value>) {
    && |xs| == FirstStop(ps, args)
    && (forall i :: 0 <= i < |xs| && ps[i].name in args ==> xs[i] == args[ps[i].name])
    && (forall i :: 0 <= i < |xs| && ps[i].name !in args && ps[i].default.Some? ==> xs[i] == ps[i].default.value)
  }

  /** Every parameter the binder asked the container for names a type `has` accepts. */
  predicate InjectedRegistered(st: State, ps: seq<Param>, args: map<string, Value>, n: nat)
    requires n <= |ps|
  {
    forall i :: 0 <= i < n && Injected(ps[i], args) ==> Has(st, ps[i].typ)
  }

  /** `get` of `t` leaves `t` in the cache: it is cached already, or its source
      is cacheable. */
  predicate CachedType(env: Env, st: State, t: string) {
    t in st.resolved || WillCache(env, st.reg, t)
  }

  lemma HasPersists(a: State, b: State, id: string)
    requires Evolves(a, b) && Keeps(a.resolved, b.resolved)
    requires Has(a, id)
    ensures Has(b, id)
  {
  }

  lemma ShapedCons(p: Param, ps: seq<Param>, args: map<string, Value>, v: Value, xs: seq<Value>)
    requires !Stops(p, args)
    requires p.name in args ==> v == args[p.name]
    requires p.name !in args && p.default.Some? ==> v == p.default.value
    requires Shaped(ps, args, xs)
    ensures Shaped([p] + ps, args, [v] + xs)
  {
    var qs := [p] + ps;
    assert qs[1..] == ps;
    forall i | 0 < i < |xs| + 1
      ensures qs[i] == ps[i - 1] && ([v] + xs)[i] == xs[i - 1]
    {
    }
  }

  lemma {:induction false} BindShape(env: Env, fuel: nat, st: State, ps: seq<Param>, args: map<string, Value>, last: Option<string>)
    ensures var r := Bind(env, fuel, st, ps, args, last);
      r.out.Ok? ==> Shaped(ps, args, r.out.value) && InjectedRegistered(r.st, ps, args, |r.out.value|)
    decreases |ps|
  {
    var r := Bind(env, fuel, st, ps, args, last);
    if ps == [] || !r.out.Ok? {
    } else {
      var p := ps[0];
      assert ps == [p] + ps[1..];
      if p.name in args || p.default.Some? {
        BindShape(env, fuel, st, ps[1..], args, last);
        var rest := Bind(env, fuel, st, ps[1..], args, last);
        ShapedCons(p, ps[1..], args, r.out.value[0], rest.out.value);
        forall i | 1 <= i < |r.out.value| && Injected(ps[i], args) ensures Has(r.st, ps[i].typ) {
          assert ps[i] == ps[1..][i - 1];
        }
      } else if p.optional {
      } else {
        var g := Get(env, fuel - 1, st, p.typ, map[]);
        BindShape(env, fuel, g.st, ps[1..], args, Some(p.typ));
        var rest := Bind(env, fuel, g.st, ps[1..], args, Some(p.typ));
        ShapedCons(p, ps[1..], args, g.out.value, rest.out.value);
        HasPersists(st, r.st, p.typ);
        forall i | 1 <= i < |r.out.value| && Injected(ps[i], args) ensures Has(r.st, ps[i].typ) {
          assert ps[i] == ps[1..][i - 1];
        }
      }
    }
  }

  /** Each injected argument is what `get` returns for the parameter's type:
      when that type was already cached, or resolves to a cacheable source, the
      cache after binding holds the very value the binder passed at that
      position. */
  lemma {:induction false} BindInjectsGet(env: Env, fuel: nat, st: State, ps: seq<Param>, args: map<string, Value>, last: Option<string>)
    ensures var r := Bind(env, fuel, st, ps, args, last);
      r.out.Ok? ==> forall i :: 0 <= i < |r.out.value| && Injected(ps[i], args) && CachedType(env, st, ps[i].typ) ==>
        ps[i].typ in r.st.resolved && r.st.resolved[ps[i].typ] == r.out.value[i]
    decreases |ps|
  {
    var r := Bind(env, fuel, st, ps, args, last);
    if ps != [] && r.out.Ok? && !Stops(ps[0], args) {
      var p := ps[0];
      var s := if Injected(p, args) then Get(env, fuel - 1, st, p.typ, map[]).st else st;
      var l := if Injected(p, args) then Some(p.typ) else last;
      var rest := Bind(env, fuel, s, ps[1..], args, l);
      BindInjectsGet(env, fuel, s, ps[1..], args, l);
      forall i | 0 <= i < |r.out.value| && Injected(ps[i], args) && CachedType(env, st, ps[i].typ)
        ensures ps[i].typ in r.st.resolved && r.st.resolved[ps[i].typ] == r.out.value[i]
      {
        if i > 0 {
          assert ps[i] == ps[1..][i - 1];
          assert r.out.value[i] == rest.out.value[i - 1];
        }
      }
    }
  }

  /** The argument a named or defaulted parameter receives. */
  function Given(p: Param, args: map<string, Value>): Value
    requires p.name in args || p.default.Some?
  {
    if p.name in args then args[p.name] else p.default.value
  }

  /** A named or defaulted first parameter is bound without consulting the state. */
  lemma GivenHead(env: Env, fuel: nat, st: State, ps: seq<Param>, args: map<string, Value>, last: Option<string>)
    requires ps != [] && (ps[0].name in args || ps[0].default.Some?)
    ensures Bind(env, fuel, st, ps, args, last) == Prepend(Given(ps[0], args), Bind(env, fuel, st, ps[1..], args, last))
  {
  }

  /** An injected first parameter is bound to the nested `get`'s value, and the
      rest is bound in the state that `get` left. */
  lemma InjectedHead(env: Env, fuel: nat, st: State, ps: seq<Param>, args: map<string, Value>, last: Option<string>)
    requires ps != [] && Injected(ps[0], args) && fuel > 0
    ensures var r := Bind(env, fuel, st, ps, args, last);
      var g := Get(env, fuel - 1, st, ps[0].typ, map[]);
      var rest := Bind(env, fuel, g.st, ps[1..], args, Some(ps[0].typ));
      r.out.Ok? ==> g.out.Ok? && r == Prepend(g.out.value, rest)
  {
  }

  /** Dropping a named or defaulted first parameter shifts the prefix before
      the first injection by one. */
  lemma GivenPrefixShift(ps: seq<Param>, args: map<string, Value>, j: nat)
    requires 0 < j < |ps|
    requires forall i :: 0 <= i < j ==> !Stops(ps[i], args) && !Injected(ps[i], args)
    ensures ps[0].name in args || ps[0].default.Some?
    ensures ps[1..][j - 1] == ps[j] && ps[1..][j..] == ps[j + 1..]
    ensures forall i :: 0 <= i < j - 1 ==> !Stops(ps[1..][i], args) && !Injected(ps[1..][i], args)
    ensures PlainBind(ps[..j], args) == [Given(ps[0], args)] + PlainBind(ps[1..][..j - 1], args)
  {
    assert !Stops(ps[0], args) && !Injected(ps[0], args);
    forall i | 0 <= i < j - 1 ensures !Stops(ps[1..][i], args) && !Injected(ps[1..][i], args) {
      assert ps[1..][i] == ps[i + 1];
    }
    assert ps[..j][0] == ps[0] && ps[..j][1..] == ps[1..][..j - 1];
  }

  /** Prepending one argument to a binding that splits at an injection
      splits the same way, one position later. */
  lemma PrependThrough(v: Value, tail: Step<seq<Value>>, pre: seq<Value>, g: Step<Value>, rest: Step<seq<Value>>)
    requires tail.out.Ok? ==>
      g.out.Ok? && rest.out.Ok? && tail.out.value == pre + [g.out.value] + rest.out.value && tail.st == rest.st
    ensures var r := Prepend(v, tail);
      r.out.Ok? ==>
        g.out.Ok? && rest.out.Ok? && r.out.value == [v] + pre + [g.out.value] + rest.out.value && r.st == rest.st
  {
  }

  /** The first parameter the binder asks the container for, whatever its type
      (a non-literal factory included): the arguments before it are the named
      arguments and defaults, the argument at its position is what the nested
      `get` of its type returned, and the rest is the binding of the remaining
      parameters in the state that `get` left, with `$name` now set to the type. */
  lemma {:induction false} BindThroughFirstInjection(env: Env, fuel: nat, st: State, ps: seq<Param>, args: map<string, Value>, last: Option<string>, j: nat)
    requires j < |ps| && Injected(ps[j], args) && fuel > 0
    requires forall i :: 0 <= i < j ==> !Stops(ps[i], args) && !Injected(ps[i], args)
    ensures var r := Bind(env, fuel, st, ps, args, last);
      var g := Get(env, fuel - 1, st, ps[j].typ, map[]);
      var rest := Bind(env, fuel, g.st, ps[j + 1..], args, Some(ps[j].typ));
      r.out.Ok? ==>
        && g.out.Ok? && rest.out.Ok?
        && r.out.value == PlainBind(ps[..j], args) + [g.out.value] + rest.out.value
        && r.st == rest.st
    decreases j
  {
    if j == 0 {
      InjectedHead(env, fuel, st, ps, args, last);
    } else {
      GivenPrefixShift(ps, args, j);
      GivenHead(env, fuel, st, ps, args, last);
      BindThroughFirstInjection(env, fuel, st, ps[1..], args, last, j - 1);
      var g := Get(env, fuel - 1, st, ps[j].typ, map[]);
      PrependThrough(Given(ps[0], args), Bind(env, fuel, st, ps[1..], args, last), PlainBind(ps[1..][..j - 1], args),
                     g, Bind(env, fuel, g.st, ps[j + 1..], args, Some(ps[j].typ)));
    }
  }

  /** The binder emits one argument per parameter, in order, until it stops or
      raises: never more arguments than parameters. */
  lemma BindLength(env: Env, fuel: nat, st: State, ps: seq<Param>, args: map<string, Value>)
    ensures var r := Bind(env, fuel, st, ps, args, None);
      r.out.Ok? ==> |r.out.value| == FirstStop(ps, args) <= |ps|
  {
    BindShape(env, fuel, st, ps, args, None);
  }

  /** When every parameter before the stop has a named argument or a default,
      the binder touches nothing and returns the plain binding. */
  lemma {:induction false} BindPure(env: Env, fuel: nat, st: State, ps: seq<Param>, args: map<string, Value>, last: Option<string>)
    requires forall i :: 0 <= i < FirstStop(ps, args) ==> !Injected(ps[i], args)
    ensures Bind(env, fuel, st, ps, args, last) == Step(Ok(PlainBind(ps, args)), st)
    ensures |PlainBind(ps, args)| == FirstStop(ps, args)
    decreases |ps|
  {
    if ps != [] && !Stops(ps[0], args) {
      assert !Injected(ps[0], args);
      forall i | 0 <= i < FirstStop(ps[1..], args) ensures !Injected(ps[1..][i], args) {
        assert ps[1..][i] == ps[i + 1];
      }
      BindPure(env, fuel, st, ps[1..], args, last);
    }
  }

  /** A single parameter to inject is bound to what the nested `get` of its
      type returns, in the state that `get` leaves. */
  lemma SingleInjection(env: Env, fuel: nat, st: State, p: Param, args: map<string, Value>)
    requires Injected(p, args) && st.processed.Some? && Has(st, p.typ) && fuel > 0
    requires Get(env, fuel - 1, st, p.typ, map[]).out.Ok?
    ensures var g := Get(env, fuel - 1, st, p.typ, map[]);
      Bind(env, fuel, st, [p], args, None) == Step(Ok([g.out.value]), g.st)
  {
    var g := Get(env, fuel - 1, st, p.typ, map[]);
    assert [p][1..] == [];
    assert Bind(env, fuel, g.st, [], args, Some(p.typ)) == Step(Ok([]), g.st);
    assert [g.out.value] + [] == [g.out.value];
  }

  /** When the nested `get` for a single injected parameter runs out of fuel,
      so does the binder. */
  lemma SingleInjectionOutOfFuel(env: Env, fuel: nat, st: State, p: Param, args: map<string, Value>)
    requires Injected(p, args) && st.processed.Some? && Has(st, p.typ)
    requires fuel == 0 || Get(env, fuel - 1, st, p.typ, map[]).out.OutOfFuel?
    ensures Bind(env, fuel, st, [p], args, None).out.OutOfFuel?
  {
  }

  /** The binder raises "Can not resolver parameter" for the first parameter
      it must inject when `has` rejects its type. */
  lemma UnregisteredTypeRaises(env: Env, fuel: nat, st: State, p: Param, ps: seq<Param>, args: map<string, Value>, last: Option<string>)
    requires Injected(p, args) && st.processed.Some? && last != st.processed
    requires !Has(st, p.typ)
    ensures Bind(env, fuel, st, [p] + ps, args, last) == Step(Err(ContainerError(Unbindable(p.name, p.typ))), st)
  {
  }

  /** The check at line 194 compares the type of the previous injected parameter
      with the id of the most recent cache-missing `get`. When the first
      injected parameter is fetched by a `get` that misses the cache and makes
      no nested cache-missing `get`, the next injected parameter fails with
      "Circular dependency", whatever its type. */
  lemma SecondInjectionSeesCircular(env: Env, fuel: nat, st: State, p: Param, q: Param, ps: seq<Param>, args: map<string, Value>)
    requires Injected(p, args) && Injected(q, args)
    requires st.processed.Some? && Has(st, p.typ) && fuel > 0
    requires var g := Get(env, fuel - 1, st, p.typ, map[]); g.out.Ok? && g.st.processed == Some(p.typ)
    ensures Bind(env, fuel, st, [p, q] + ps, args, None).out == Err(ContainerError(Circular(p.typ)))
  {
    var qs := [p, q] + ps;
    assert qs[0] == p && qs[1..] == [q] + ps;
    assert ([q] + ps)[0] == q;
  }

  /** A literal source fetched on a cache miss satisfies the condition above: a
      function taking two injected parameters, the first of a type registered
      as a literal and not yet resolved, fails on the second. */
  lemma LiteralFirstDependencyBlocksSecond(env: Env, fuel: nat, st: State, p: Param, q: Param, ps: seq<Param>, args: map<string, Value>)
    requires Injected(p, args) && Injected(q, args)
    requires st.processed.Some? && Has(st, p.typ) && p.typ !in st.resolved && fuel > 0
    requires GetSource(env, st.reg, p.typ).Found? && Classify(env, GetSource(env, st.reg, p.typ).source) == Literal
    ensures Bind(env, fuel, st, [p, q] + ps, args, None).out == Err(ContainerError(Circular(p.typ)))
  {
    SecondInjectionSeesCircular(env, fuel, st, p, q, ps, args);
  }
}

=== FILE: engine.dfy ===
/**
  The resolution engine of src/Container.php: `get`, the private `resolve`,
  `resolveObject`, `resolveCallable`, the parameter binder `resolveParameters`
  and `call`. Every operation threads the state and returns it alongside the
  outcome, also on failure: PHP exceptions do not undo the cache writes and
  calls made before them.

  `get`, `resolve` and the binder are mutually recursive. The recursion is
  bounded by `fuel`, which the binder spends on each nested `get`; running out
  is the distinct outcome `OutOfFuel` (in PHP an unbounded recursion is a fatal
  error that no `catch` intercepts).
 */
module Engine {
  import opened Values
  import opened Registry

  datatype Outcome<+T> = Ok(value: T) | Err(error: Error) | OutOfFuel

  datatype Step<+T> = Step(out: Outcome<T>, st: State)

  /** The branch `resolve` takes for a source (src/Container.php:89-119). */
  datatype Kind =
    | Literal        // returned and cached as is
    | ClassName      // constructed by resolveObject
    | FunctionName   // handed to the missing resolveFunction
    | Undefined      // "type is undefined"
    | Callable       // invoked by resolveCallable

  function Classify(env: Env, src: Value): (k: Kind)
    ensures k == ClassName ==> src.VStr? && src.s in env.classes
    ensures k == Callable ==> src.VClosure? || src.VArray?
    ensures src.VBool? ==> k == Undefined
    ensures src.VNull? || src.VInt? || src.VFloat? || src.VContainer? || src.VObject? ==> k == Literal
    ensures IsNumeric(src) ==> k == Literal
    ensures src.VStr? && src.s !in env.classes && src.s !in env.functions ==> k == Literal
    ensures src.VStr? && !IsNumeric(src) ==> (k == ClassName <==> src.s in env.classes)
    ensures src.VStr? && !IsNumeric(src) && src.s !in env.classes ==> (k == FunctionName <==> src.s in env.functions)
    ensures src.VClosure? ==> k == Callable
    ensures src.VArray? ==> (k == Callable <==> IsCallable(env, src)) && (k == Undefined <==> !IsCallable(env, src))
  {
    if IsNumeric(src) || src.VNull? || IsPlainObject(src) then Literal
    else if src.VStr? && src.s in env.classes then ClassName
    else if src.VStr? && src.s in env.functions then FunctionName
    else if src.VStr? then Literal
    else if !IsCallable(env, src) then Undefined
    else Callable
  }

  /** The value a get of `id` leaves in the cache: the lookup succeeds and the
      source is either not a factory or a literal. */
  predicate WillCache(env: Env, reg: Registry, id: string) {
    var l := GetSource(env, reg, id);
    l.Found? && (!l.isFactory || Classify(env, l.source) == Literal)
  }

  /** How one state may evolve into another across any engine operation:
      registrations untouched, history only extended, `processedResolved`
      never reset once assigned. */
  predicate Evolves(a: State, b: State) {
    && a.reg == b.reg
    && a.log <= b.log
    && (a.processed.Some? ==> b.processed.Some?)
  }

  /** Cache entries of `a` other than `id` survive unchanged in `b`. */
  predicate KeepsExcept(a: map<string, Value>, b: map<string, Value>, id: string) {
    && a.Keys <= b.Keys
    && forall k :: k in a && k != id ==> b[k] == a[k]
  }

  /** Every cache entry of `a` survives unchanged in `b`. */
  predicate Keeps(a: map<string, Value>, b: map<string, Value>) {
    && a.Keys <= b.Keys
    && forall k :: k in a ==> b[k] == a[k]
  }

  predicate IsNotFound<T>(o: Outcome<T>) {
    o.Err? && o.error.NotFound?
  }

  predicate CleanError<T>(o: Outcome<T>) {
    o.Err? ==> NoUninitialized(o.error)
  }

  /** `get` (src/Container.php:70-78). */
  function Get(env: Env, fuel: nat, st: State, id: string, args: map<string, Value>): (r: Step<Value>)
    ensures id in st.resolved ==> r == Step(Ok(st.resolved[id]), st)
    ensures Evolves(st, r.st) && Keeps(st.resolved, r.st.resolved)
    ensures id !in st.resolved ==> r.st.processed.Some?
    ensures r.out.Ok? && WillCache(env, st.reg, id) ==> id in r.st.resolved && r.st.resolved[id] == r.out.value
    ensures IsNotFound(r.out) ==> r.out.error.id == id && id !in st.resolved && !Has(st, id)
    ensures CleanError(r.out)
    decreases fuel, 4, 0
  {
    if id in st.resolved then Step(Ok(st.resolved[id]), st)
    else Resolve(env, fuel, st.(processed := Some(id)), id, args)
  }

  /** Caches a produced value under `id` unless it came from a factory
      (src/Container.php:121-125). */
  function Store(r: Step<Value>, id: string, isFactory: bool): Step<Value> {
    if r.out.Ok? && !isFactory then Step(r.out, r.st.(resolved := r.st.resolved[id := r.out.value])) else r
  }

  /** The `catch` around resolveCallable (src/Container.php:111-118). */
  function Rewrap(r: Step<Value>, id: string): Step<Value> {
    if r.out.Err? then Step(Err(ContainerError(Wrapped(id, r.out.error))), r.st) else r
  }

  /** The private `resolve` (src/Container.php:80-126). */
  function Resolve(env: Env, fuel: nat, st: State, id: string, args: map<string, Value>): (r: Step<Value>)
    ensures Evolves(st, r.st) && KeepsExcept(st.resolved, r.st.resolved, id)
    ensures r.out.Ok? && WillCache(env, st.reg, id) ==> id in r.st.resolved && r.st.resolved[id] == r.out.value
    ensures IsNotFound(r.out) <==> !Has(st, id)
    ensures !Has(st, id) ==> r == Step(Err(NotFound(id)), st)
    ensures st.processed.Some? ==> CleanError(r.out)
    decreases fuel, 3, 0
  {
    if !Has(st, id) then Step(Err(NotFound(id)), st)
    else match GetSource(env, st.reg, id)
      case Failed(e) => Step(Err(e), st)
      case Found(src, isFactory) =>
        match Classify(env, src)
        case Literal => Step(Ok(src), st.(resolved := st.resolved[id := src]))
        case ClassName => Store(ResolveObject(env, fuel, st, src.s, args), id, isFactory)
        case FunctionName => Step(Err(UndefinedMethod("resolveFunction")), st)
        case Undefined => Step(Err(ContainerError(TypeUndefined(id))), st)
        case Callable => Store(Rewrap(ResolveCallable(env, fuel, st, src, args), id), id, isFactory)
  }

  /** Runs the constructor of `cls` with `xs`: newInstance yields an instance
      numbered by the position of its construction in the history, unless the
      constructor throws. */
  function Construct(env: Env, st: State, cls: string, xs: seq<Value>): (r: Step<Value>)
    ensures r.st == st.(log := st.log + [Constructed(cls, xs)])
    ensures r.out.Ok? ==> r.out.value == VObject(cls, |st.log|)
  {
    var log := st.log + [Constructed(cls, xs)];
    match env.answer(log)
    case Raises(c) => Step(Err(Raised(c)), st.(log := log))
    case Normal(_) => Step(Ok(VObject(cls, |st.log|)), st.(log := log))
  }

  /** Calls into user code and returns what it returns. */
  function Invoke(env: Env, st: State, ev: Event): (r: Step<Value>)
    ensures r.st == st.(log := st.log + [ev])
    ensures r.out.Ok? <==> env.answer(r.st.log).Normal?
  {
    var log := st.log + [ev];
    match env.answer(log)
    case Raises(c) => Step(Err(Raised(c)), st.(log := log))
    case Normal(v) => Step(Ok(v), st.(log := log))
  }

  /** `resolveObject` (src/Container.php:128-153). */
  function ResolveObject(env: Env, fuel: nat, st: State, cls: string, args: map<string, Value>): (r: Step<Value>)
    ensures Evolves(st, r.st) && Keeps(st.resolved, r.st.resolved)
    ensures !IsNotFound(r.out)
    ensures st.processed.Some? ==> CleanError(r.out)
    ensures r.out.Ok? ==> cls in env.classes && env.classes[cls].instantiable && r.out.value.VObject? && r.out.value.cls == cls
    decreases fuel, 2, 0
  {
    if cls !in env.classes then
      // ReflectionClass throws; its catch calls the undefined function strintf
      Step(Err(UndefinedFunction("strintf")), st)
    else
      var info := env.classes[cls];
      if !info.instantiable then Step(Err(InvalidArgument), st)
      else match info.ctor
        case None =>
          // newInstance runs no user code: the instance is recorded, nothing can throw
          Step(Ok(VObject(cls, |st.log|)), st.(log := st.log + [Constructed(cls, [])]))
        case Some(ps) =>
          var b := Bind(env, fuel, st, ps, args, None);
          match b.out
          case Ok(xs) => Construct(env, b.st, cls, xs)
          case Err(e) => Step(Err(e), b.st)
          case OutOfFuel => Step(OutOfFuel, b.st)
  }

  /** The public `resolveCallable` (src/Container.php:155-166). For an array
      the reflection object built at line 158 is discarded and line 161 hands
      the array itself to ReflectionFunction, which rejects it. */
  function ResolveCallable(env: Env, fuel: nat, st: State, action: Value, args: map<string, Value>): (r: Step<Value>)
    ensures Evolves(st, r.st) && Keeps(st.resolved, r.st.resolved)
    ensures !IsNotFound(r.out)
    ensures st.processed.Some? ==> CleanError(r.out)
    ensures action.VArray? || action.VObject? || action.VContainer? ==> r == Step(Err(TypeError), st)
    decreases fuel, 2, 0
  {
    match action
    case VClosure(_, ps) => BindAndInvoke(env, fuel, st, action, ps, args)
    case VStr(s) =>
      if s in env.functions then BindAndInvoke(env, fuel, st, action, env.functions[s], args)
      else Step(Err(ReflectionFailure), st)
    case VArray(_) => Step(Err(TypeError), st)
    case VObject(_, _) => Step(Err(TypeError), st)
    case VContainer => Step(Err(TypeError), st)
    case _ =>
      // a scalar is coerced to a string, which names no function
      Step(Err(ReflectionFailure), st)
  }

  function BindAndInvoke(env: Env, fuel: nat, st: State, target: Value, ps: seq<Param>, args: map<string, Value>): (r: Step<Value>)
    ensures Evolves(st, r.st) && Keeps(st.resolved, r.st.resolved)
    ensures !IsNotFound(r.out)
    ensures st.processed.Some? ==> CleanError(r.out)
    decreases fuel, 1, |ps| + 1
  {
    var b := Bind(env, fuel, st, ps, args, None);
    match b.out
    case Ok(xs) => Invoke(env, b.st, Invoked(target, xs))
    case Err(e) => Step(Err(e), b.st)
    case OutOfFuel => Step(OutOfFuel, b.st)
  }

  /** The binder stops at this parameter: no argument, no default, optional. */
  predicate Stops(p: Param, args: map<string, Value>) {
    p.name !in args && p.default.None? && p.optional
  }

  /** The binder asks the container for this parameter. */
  predicate Injected(p: Param, args: map<string, Value>) {
    p.name !in args && p.default.None? && !p.optional
  }

  function Prepend(v: Value, rest: Step<seq<Value>>): (r: Step<seq<Value>>)
    ensures r.st == rest.st
    ensures r.out.Ok? <==> rest.out.Ok?
    ensures r.out.Ok? ==> r.out.value == [v] + rest.out.value
    ensures !r.out.Ok? ==> r.out == rest.out
  {
    match rest.out
    case Ok(xs) => Step(Ok([v] + xs), rest.st)
    case Err(e) => Step(Err(e), rest.st)
    case OutOfFuel => Step(OutOfFuel, rest.st)
  }

  /** `resolveParameters` (src/Container.php:173-211). `last` is the local
      `$name`: the declared type of the most recent parameter that reached
      line 201 in this invocation, None while it is still undefined. */
  function Bind(env: Env, fuel: nat, st: State, ps: seq<Param>, args: map<string, Value>, last: Option<string>): (r: Step<seq<Value>>)
    ensures Evolves(st, r.st) && Keeps(st.resolved, r.st.resolved)
    ensures !IsNotFound(r.out)
    ensures st.processed.Some? ==> CleanError(r.out)
    ensures r.out.Ok? ==> |r.out.value| <= |ps|
    decreases fuel, 1, |ps|
  {
    if ps == [] then Step(Ok([]), st)
    else
      var p := ps[0];
      if p.name in args then Prepend(args[p.name], Bind(env, fuel, st, ps[1..], args, last))
      else if p.default.Some? then Prepend(p.default.value, Bind(env, fuel, st, ps[1..], args, last))
      else if p.optional then Step(Ok([]), st)
      else if st.processed.None? then Step(Err(Uninitialized), st)
      else if last == st.processed then Step(Err(ContainerError(Circular(st.processed.value))), st)
      else if !Has(st, p.typ) then Step(Err(ContainerError(Unbindable(p.name, p.typ))), st)
      else if fuel == 0 then Step(OutOfFuel, st)
      else
        var g := Get(env, fuel - 1, st, p.typ, map[]);
        match g.out
        case Ok(v) => Prepend(v, Bind(env, fuel, g.st, ps[1..], args, Some(p.typ)))
        case Err(e) => Step(Err(e), g.st)
        case OutOfFuel => Step(OutOfFuel, g.st)
  }

  /** `call` (src/Container.php:45-58): look the source up, insist that it is
      callable, invoke it with the positional arguments. */
  function Call(env: Env, st: State, id: string, xs: seq<Value>): (r: Step<Value>)
    ensures r.st.reg == st.reg && r.st.resolved == st.resolved && r.st.processed == st.processed
    ensures r.st.log == st.log || (|r.st.log| == |st.log| + 1 && r.st.log[..|st.log|] == st.log && r.st.log[|st.log|].Called?)
    ensures !IsNotFound(r.out) && !r.out.OutOfFuel?
  {
    match GetSource(env, st.reg, id)
    case Failed(e) => Step(Err(e), st)
    case Found(src, _) =>
      if !IsCallable(env, src) then Step(Err(ContainerError(NotCallable(id))), st)
      else Invoke(env, st, Called(src, xs))
  }
}

=== FILE: engine_props.dfy ===
/**
  Properties of `get`, `resolve` and `call` (src/Container.php:45-126).
 */
module EngineProps {
  import opened Values
  import opened Registry
  import opened Engine
  import BinderProps

  /** The container resolves to itself under its class and its interface from
      construction on, whatever arguments are passed. */
  lemma NewResolvesSelf(env: Env, fuel: nat, id: string, args: map<string, Value>)
    requires id == ContainerClass || id == ContainerInterface
    ensures Get(env, fuel, New(), id, args) == Step(Ok(VContainer), New())
  {
  }

  /** Registering an id that is already resolved does not change what `get` returns. */
  lemma ReregisterResolvedIsInvisible(env: Env, fuel: nat, st: State, id: string, v: Value, args: map<string, Value>)
    requires id in st.resolved
    ensures Get(env, fuel, Set(st, id, v), id, args).out == Ok(st.resolved[id])
    ensures Get(env, fuel, Factory(st, id, v), id, args).out == Ok(st.resolved[id])
    ensures Get(env, fuel, File(st, id, v), id, args).out == Ok(st.resolved[id])
    ensures Get(env, fuel, Alias(st, id, v), id, args).out == Ok(st.resolved[id])
  {
  }

  /** `get` raises NotFound exactly for an id neither cached nor present in any map;
      it then leaves the cache as it was. */
  lemma NotFoundIffMissing(env: Env, fuel: nat, st: State, id: string, args: map<string, Value>)
    ensures var r := Get(env, fuel, st, id, args);
      IsNotFound(r.out) <==> id !in st.resolved && !Has(st, id)
    ensures var r := Get(env, fuel, st, id, args);
      IsNotFound(r.out) ==> r.out == Err(NotFound(id)) && r.st.resolved == st.resolved
  {
  }

  /** A literal source is returned unchanged and cached under the requested id,
      even when it is registered as a factory. */
  lemma LiteralCachedEvenForFactory(env: Env, fuel: nat, st: State, id: string, args: map<string, Value>, src: Value, isFactory: bool)
    requires id !in st.resolved && Has(st, id)
    requires GetSource(env, st.reg, id) == Found(src, isFactory) && Classify(env, src) == Literal
    ensures Get(env, fuel, st, id, args) ==
      Step(Ok(src), st.(resolved := st.resolved[id := src], processed := Some(id)))
  {
  }

  /** Booleans and arrays that are not callable raise "type is undefined" and
      cache nothing. */
  lemma UndefinedTypeRaises(env: Env, fuel: nat, st: State, id: string, args: map<string, Value>, src: Value, isFactory: bool)
    requires id !in st.resolved && Has(st, id)
    requires GetSource(env, st.reg, id) == Found(src, isFactory)
    requires src.VBool? || (src.VArray? && !IsCallable(env, src))
    ensures Get(env, fuel, st, id, args) ==
      Step(Err(ContainerError(TypeUndefined(id))), st.(processed := Some(id)))
  {
  }

  /** A callable array reaches ReflectionFunction at line 161, which rejects
      it; the catch at lines 111-118 rewraps the TypeError. */
  lemma ArrayCallableRewrapped(env: Env, fuel: nat, st: State, id: string, args: map<string, Value>, src: Value, isFactory: bool)
    requires id !in st.resolved && Has(st, id)
    requires GetSource(env, st.reg, id) == Found(src, isFactory)
    requires src.VArray? && IsCallable(env, src)
    ensures Get(env, fuel, st, id, args) ==
      Step(Err(ContainerError(Wrapped(id, TypeError))), st.(processed := Some(id)))
  {
  }

  /** A string naming a function (and no class) is handed to resolveFunction,
      which the class does not declare. */
  lemma FunctionNameHitsMissingMethod(env: Env, fuel: nat, st: State, id: string, args: map<string, Value>, f: string, isFactory: bool)
    requires id !in st.resolved && Has(st, id)
    requires GetSource(env, st.reg, id) == Found(VStr(f), isFactory)
    requires f in env.functions && f !in env.classes && !Php.IsNumericString(f)
    ensures Get(env, fuel, st, id, args) ==
      Step(Err(UndefinedMethod("resolveFunction")), st.(processed := Some(id)))
  {
  }

  /** Singleton: once `get` succeeds for a non-factory id, every later `get` of it
      returns the same value, ignores its arguments and changes nothing. */
  lemma SingletonStable(env: Env, fuel: nat, fuel': nat, st: State, id: string, args: map<string, Value>, args': map<string, Value>)
    requires WillCache(env, st.reg, id)
    requires Get(env, fuel, st, id, args).out.Ok?
    ensures var r := Get(env, fuel, st, id, args);
      Get(env, fuel', r.st, id, args') == Step(r.out, r.st)
  {
  }

  /** A factory whose source is not a literal is never written to the cache. */
  predicate NeverCached(env: Env, reg: Registry, k: string) {
    var l := GetSource(env, reg, k);
    l.Found? && l.isFactory && Classify(env, l.source) != Literal
  }

  lemma {:induction false} GetLeavesFactoryUncached(env: Env, fuel: nat, st: State, id: string, args: map<string, Value>, k: string)
    requires NeverCached(env, st.reg, k) && k !in st.resolved
    ensures k !in Get(env, fuel, st, id, args).st.resolved
    decreases fuel, 4, 0
  {
    if id !in st.resolved {
      ResolveLeavesFactoryUncached(env, fuel, st.(processed := Some(id)), id, args, k);
    }
  }

  lemma {:induction false} ResolveLeavesFactoryUncached(env: Env, fuel: nat, st: State, id: string, args: map<string, Value>, k: string)
    requires NeverCached(env, st.reg, k) && k !in st.resolved
    ensures k !in Resolve(env, fuel, st, id, args).st.resolved
    decreases fuel, 3, 0
  {
    if Has(st, id) && GetSource(env, st.reg, id).Found? {
      var src := GetSource(env, st.reg, id).source;
      match Classify(env, src)
      case ClassName => ObjectLeavesFactoryUncached(env, fuel, st, src.s, args, k);
      case Callable => CallableLeavesFactoryUncached(env, fuel, st, src, args, k);
      case _ =>
    }
  }

  lemma {:induction false} ObjectLeavesFactoryUncached(env: Env, fuel: nat, st: State, cls: string, args: map<string, Value>, k: string)
    requires NeverCached(env, st.reg, k) && k !in st.resolved
    ensures k !in ResolveObject(env, fuel, st, cls, args).st.resolved
    decreases fuel, 2, 0
  {
    if cls in env.classes && env.classes[cls].instantiable && env.classes[cls].ctor.Some? {
      BindLeavesFactoryUncached(env, fuel, st, env.classes[cls].ctor.value, args, None, k);
    }
  }

  lemma {:induction false} CallableLeavesFactoryUncached(env: Env, fuel: nat, st: State, action: Value, args: map<string, Value>, k: string)
    requires NeverCached(env, st.reg, k) && k !in st.resolved
    ensures k !in ResolveCallable(env, fuel, st, action, args).st.resolved
    decreases fuel, 2, 0
  {
    match action
    case VClosure(_, ps) => BindLeavesFactoryUncached(env, fuel, st, ps, args, None, k);
    case VStr(s) =>
      if s in env.functions {
        BindLeavesFactoryUncached(env, fuel, st, env.functions[s], args, None, k);
      }
    case _ =>
  }

  lemma {:induction false} BindLeavesFactoryUncached(env: Env, fuel: nat, st: State, ps: seq<Param>, args: map<string, Value>, last: Option<string>, k: string)
    requires NeverCached(env, st.reg, k) && k !in st.resolved
    ensures k !in Bind(env, fuel, st, ps, args, last).st.resolved
    decreases fuel, 1, |ps|
  {
    if ps != [] {
      var p := ps[0];
      if p.name in args || p.default.Some? {
        BindLeavesFactoryUncached(env, fuel, st, ps[1..], args, last, k);
      } else if !p.optional && st.processed.Some? && last != st.processed && Has(st, p.typ) && fuel > 0 {
        var g := Get(env, fuel - 1, st, p.typ, map[]);
        GetLeavesFactoryUncached(env, fuel - 1, st, p.typ, map[], k);
        if g.out.Ok? {
          BindLeavesFactoryUncached(env, fuel, g.st, ps[1..], args, Some(p.typ), k);
        }
      }
    }
  }

  /** Resolving a closure binds its parameters and, when that succeeds,
      invokes it once with the bound arguments, after everything the binding did. */
  lemma ClosureBindsThenInvokes(env: Env, fuel: nat, st: State, tag: nat, ps: seq<Param>, args: map<string, Value>)
    ensures Classify(env, VClosure(tag, ps)) == Callable
    ensures var b := Bind(env, fuel, st, ps, args, None);
      b.out.Ok? ==>
        ResolveCallable(env, fuel, st, VClosure(tag, ps), args) == Invoke(env, b.st, Invoked(VClosure(tag, ps), b.out.value))
  {
  }

  /** A factory closure whose parameters bind is invoked again on every `get`:
      one more call, with the bound arguments, after the calls of the nested
      `get`s; nothing is cached under the id; a throw comes back rewrapped. */
  lemma FactoryClosureReinvokes(env: Env, fuel: nat, st: State, id: string, args: map<string, Value>, tag: nat, ps: seq<Param>)
    requires id !in st.resolved && Has(st, id)
    requires GetSource(env, st.reg, id) == Found(VClosure(tag, ps), true)
    requires Bind(env, fuel, st.(processed := Some(id)), ps, args, None).out.Ok?
    ensures var b := Bind(env, fuel, st.(processed := Some(id)), ps, args, None);
      var r := Get(env, fuel, st, id, args);
      && r.st.resolved == b.st.resolved && id !in r.st.resolved
      && r.st.log == b.st.log + [Invoked(VClosure(tag, ps), b.out.value)]
      && r.out == (match env.answer(r.st.log)
                   case Normal(v) => Ok(v)
                   case Raises(c) => Err(ContainerError(Wrapped(id, Raised(c)))))
  {
    var st1 := st.(processed := Some(id));
    var b := Bind(env, fuel, st1, ps, args, None);
    ClosureBindsThenInvokes(env, fuel, st1, tag, ps, args);
    var inv := Invoke(env, b.st, Invoked(VClosure(tag, ps), b.out.value));
    assert Resolve(env, fuel, st1, id, args) == Rewrap(inv, id);
    BindLeavesFactoryUncached(env, fuel, st1, ps, args, None, id);
  }

  /** Resolving a closure without parameters is one invocation with no arguments. */
  lemma ClosureWithoutParams(env: Env, fuel: nat, st: State, tag: nat, args: map<string, Value>) returns (inv: Step<Value>)
    ensures inv == Invoke(env, st, Invoked(VClosure(tag, []), []))
    ensures ResolveCallable(env, fuel, st, VClosure(tag, []), args) == inv
    ensures Classify(env, VClosure(tag, [])) == Callable
  {
    assert Bind(env, fuel, st, [], args, None) == Step(Ok([]), st);
    inv := Invoke(env, st, Invoked(VClosure(tag, []), []));
  }

  /** A closure registered with `set` whose parameters bind is invoked once
      with the bound arguments and its result cached under the requested id. */
  lemma DefinitionClosureCachesOnce(env: Env, fuel: nat, st: State, id: string, args: map<string, Value>, tag: nat, ps: seq<Param>)
    requires id !in st.resolved && Has(st, id)
    requires GetSource(env, st.reg, id) == Found(VClosure(tag, ps), false)
    requires var b := Bind(env, fuel, st.(processed := Some(id)), ps, args, None);
      b.out.Ok? && env.answer(b.st.log + [Invoked(VClosure(tag, ps), b.out.value)]).Normal?
    ensures var b := Bind(env, fuel, st.(processed := Some(id)), ps, args, None);
      var r := Get(env, fuel, st, id, args);
      var v := env.answer(b.st.log + [Invoked(VClosure(tag, ps), b.out.value)]).value;
      && r.out == Ok(v)
      && r.st.resolved == b.st.resolved[id := v]
      && r.st.log == b.st.log + [Invoked(VClosure(tag, ps), b.out.value)]
  {
    var st1 := st.(processed := Some(id));
    var b := Bind(env, fuel, st1, ps, args, None);
    ClosureBindsThenInvokes(env, fuel, st1, tag, ps, args);
    var inv := Invoke(env, b.st, Invoked(VClosure(tag, ps), b.out.value));
    assert Resolve(env, fuel, st1, id, args) == Store(inv, id, false);
  }

  /** A `getSource` failure, such as an exception thrown by an included file,
      escapes `get` unwrapped: lines 86-87 sit outside the try. */
  lemma SourceFailureEscapes(env: Env, fuel: nat, st: State, id: string, args: map<string, Value>, e: Error)
    requires id !in st.resolved && Has(st, id)
    requires GetSource(env, st.reg, id) == Failed(e)
    ensures Get(env, fuel, st, id, args) == Step(Err(e), st.(processed := Some(id)))
  {
  }

  /** A class without a constructor, registered by name with `set`, is
      instantiated once with no arguments and cached. */
  lemma ClassWithoutCtorResolves(env: Env, fuel: nat, st: State, id: string, args: map<string, Value>, c: string)
    requires id !in st.resolved && Has(st, id)
    requires GetSource(env, st.reg, id) == Found(VStr(c), false)
    requires Classify(env, VStr(c)) == ClassName && env.classes[c] == ClassInfo(true, None)
    ensures Get(env, fuel, st, id, args) ==
      Step(Ok(VObject(c, |st.log|)),
           st.(processed := Some(id), log := st.log + [Constructed(c, [])],
               resolved := st.resolved[id := VObject(c, |st.log|)]))
  {
    var st1 := st.(processed := Some(id));
    var k := Step(Ok(VObject(c, |st.log|)), st1.(log := st.log + [Constructed(c, [])]));
    assert ResolveObject(env, fuel, st1, c, args) == k;
    assert Resolve(env, fuel, st1, id, args) == Store(k, id, false);
  }

  /** Resolving an instantiable class with a constructor binds the
      constructor's parameters and, when that succeeds, constructs the class
      once with the bound arguments, after everything the binding did; a
      failed binding is the outcome, in the state the binding left. */
  lemma ObjectBindsThenConstructs(env: Env, fuel: nat, st: State, cls: string, ps: seq<Param>, args: map<string, Value>)
    requires cls in env.classes && env.classes[cls] == ClassInfo(true, Some(ps))
    ensures var b := Bind(env, fuel, st, ps, args, None);
      b.out.Ok? ==> ResolveObject(env, fuel, st, cls, args) == Construct(env, b.st, cls, b.out.value)
    ensures var b := Bind(env, fuel, st, ps, args, None);
      b.out.Err? ==> ResolveObject(env, fuel, st, cls, args) == Step(Err(b.out.error), b.st)
    ensures var b := Bind(env, fuel, st, ps, args, None);
      b.out.OutOfFuel? ==> ResolveObject(env, fuel, st, cls, args) == Step(OutOfFuel, b.st)
  {
  }

  /** A class whose constructor takes one injected parameter is built from the
      nested `get` of the parameter's type, then cached. */
  lemma ClassWithOneDependency(env: Env, fuel: nat, st: State, id: string, args: map<string, Value>, c: string, p: Param)
    requires id !in st.resolved && Has(st, id) && fuel > 0
    requires GetSource(env, st.reg, id) == Found(VStr(c), false)
    requires Classify(env, VStr(c)) == ClassName && env.classes[c] == ClassInfo(true, Some([p]))
    requires Injected(p, args) && Has(st, p.typ)
    requires var g := Get(env, fuel - 1, st.(processed := Some(id)), p.typ, map[]);
      g.out.Ok? && env.answer(g.st.log + [Constructed(c, [g.out.value])]).Normal?
    ensures var g := Get(env, fuel - 1, st.(processed := Some(id)), p.typ, map[]);
      var o := VObject(c, |g.st.log|);
      Get(env, fuel, st, id, args) ==
        Step(Ok(o), g.st.(log := g.st.log + [Constructed(c, [g.out.value])], resolved := g.st.resolved[id := o]))
  {
    var st1 := st.(processed := Some(id));
    var g := Get(env, fuel - 1, st1, p.typ, map[]);
    BinderProps.SingleInjection(env, fuel, st1, p, args);
    ObjectBindsThenConstructs(env, fuel, st1, c, [p], args);
    var k := Construct(env, g.st, c, [g.out.value]);
    assert Resolve(env, fuel, st1, id, args) == Store(k, id, false);
  }

  /** A closure whose parameters cannot be bound fails inside the try at lines
      111-118, so the binder's error comes back rewrapped under the id. */
  lemma ClosureBindErrorRewrapped(env: Env, fuel: nat, st: State, id: string, args: map<string, Value>, tag: nat, ps: seq<Param>, isFactory: bool)
    requires id !in st.resolved && Has(st, id)
    requires GetSource(env, st.reg, id) == Found(VClosure(tag, ps), isFactory)
    requires Bind(env, fuel, st.(processed := Some(id)), ps, args, None).out.Err?
    ensures Get(env, fuel, st, id, args).out ==
      Err(ContainerError(Wrapped(id, Bind(env, fuel, st.(processed := Some(id)), ps, args, None).out.error)))
  {
    var st1 := st.(processed := Some(id));
    var b := Bind(env, fuel, st1, ps, args, None);
    assert Classify(env, VClosure(tag, ps)) == Callable;
    assert ResolveCallable(env, fuel, st1, VClosure(tag, ps), args) == Step(Err(b.out.error), b.st);
    assert Resolve(env, fuel, st1, id, args) == Store(Rewrap(Step(Err(b.out.error), b.st), id), id, isFactory);
  }

  /** Through an alias, the value is cached under the alias id only: the
      `get` of the alias adds no entry for the id the alias points to beyond
      what its nested `get`s add. */
  lemma AliasCachedUnderRequestedId(env: Env, fuel: nat, st: State, a: string, t: string, args: map<string, Value>, tag: nat, ps: seq<Param>)
    requires a != t && a !in st.resolved
    requires Present(st.reg.aliases, a) && st.reg.aliases[a] == VStr(t)
    requires t in st.reg.definitions && st.reg.definitions[t] == VClosure(tag, ps)
    requires var b := Bind(env, fuel, st.(processed := Some(a)), ps, args, None);
      b.out.Ok? && env.answer(b.st.log + [Invoked(VClosure(tag, ps), b.out.value)]).Normal?
    ensures var b := Bind(env, fuel, st.(processed := Some(a)), ps, args, None);
      var r := Get(env, fuel, st, a, args);
      && r.out.Ok? && r.st.resolved == b.st.resolved[a := r.out.value]
      && (t in r.st.resolved <==> t in b.st.resolved)
  {
    assert GetSource(env, st.reg, a) == Found(VClosure(tag, ps), false);
    DefinitionClosureCachesOnce(env, fuel, st, a, args, tag, ps);
  }

  /** Aliases are followed one hop only: an alias of an alias resolves to null. */
  lemma AliasOfAliasIsNull(env: Env, fuel: nat, st: State, a2: string, a1: string, args: map<string, Value>)
    requires a2 !in st.resolved
    requires Present(st.reg.aliases, a2) && st.reg.aliases[a2] == VStr(a1)
    requires a1 !in st.reg.definitions && a1 !in st.reg.factories && a1 !in st.reg.files
    ensures Get(env, fuel, st, a2, args) ==
      Step(Ok(VNull), st.(resolved := st.resolved[a2 := VNull], processed := Some(a2)))
  {
  }

  /** The circular check does not catch a class whose constructor requires an
      instance of itself: the nested `get` recurses until the fuel is spent. */
  lemma {:induction false} SelfDependencyExhaustsFuel(env: Env, fuel: nat, st: State, c: string, p: Param, args: map<string, Value>)
    requires Classify(env, VStr(c)) == ClassName && env.classes[c] == ClassInfo(true, Some([p]))
    requires p.typ == c && p.name !in args && p.default.None? && !p.optional
    requires c !in st.resolved && c in st.reg.definitions && st.reg.definitions[c] == VStr(c)
    requires !Present(st.reg.aliases, c)
    ensures Get(env, fuel, st, c, args).out == OutOfFuel
    decreases fuel
  {
    var st1 := st.(processed := Some(c));
    if fuel > 0 {
      SelfDependencyExhaustsFuel(env, fuel - 1, st1, c, p, map[]);
    }
    BinderProps.SingleInjectionOutOfFuel(env, fuel, st1, p, args);
    ObjectFollowsBinder(env, fuel, st, c, p, args);
  }

  /** A class registered under its own name whose constructor has one
      parameter fails the way binding that parameter fails. */
  lemma ObjectFollowsBinder(env: Env, fuel: nat, st: State, c: string, p: Param, args: map<string, Value>)
    requires Classify(env, VStr(c)) == ClassName && env.classes[c] == ClassInfo(true, Some([p]))
    requires c !in st.resolved && c in st.reg.definitions && st.reg.definitions[c] == VStr(c)
    requires !Present(st.reg.aliases, c)
    ensures var b := Bind(env, fuel, st.(processed := Some(c)), [p], args, None);
      b.out.OutOfFuel? ==> Get(env, fuel, st, c, args).out.OutOfFuel?
  {
    var st1 := st.(processed := Some(c));
    assert GetSource(env, st1.reg, c) == Found(VStr(c), false);
    var b := Bind(env, fuel, st1, [p], args, None);
    if b.out.OutOfFuel? {
      assert ResolveObject(env, fuel, st1, c, args) == Step(OutOfFuel, b.st);
    }
  }

  /** `call` neither reads nor writes the cache or `processedResolved`: its
      outcome is the same whatever they hold. */
  lemma CallIgnoresCache(env: Env, st: State, id: string, xs: seq<Value>, m: map<string, Value>, p: Option<string>)
    ensures var r := Call(env, st, id, xs);
      Call(env, st.(resolved := m, processed := p), id, xs) == Step(r.out, r.st.(resolved := m, processed := p))
  {
  }

  /** `call` never consults `has`: an id with no registration, even one the cache
      holds, raises "is not callable" and not NotFound. */
  lemma CallUnregisteredNotCallable(env: Env, st: State, id: string, xs: seq<Value>)
    requires !Present(st.reg.aliases, id)
    requires id !in st.reg.definitions && id !in st.reg.factories && id !in st.reg.files
    ensures Call(env, st, id, xs) == Step(Err(ContainerError(NotCallable(id))), st)
  {
  }

  /** A callable source is invoked with the positional arguments as given,
      bypassing the binder, and `call` returns what `call_user_func` returned
      or lets its exception escape unwrapped. */
  lemma CallInvokesPositionally(env: Env, st: State, id: string, xs: seq<Value>, src: Value, isFactory: bool)
    requires GetSource(env, st.reg, id) == Found(src, isFactory) && IsCallable(env, src)
    ensures Call(env, st, id, xs).st.log == st.log + [Called(src, xs)]
    ensures var r := Call(env, st, id, xs);
      env.answer(r.st.log).Normal? ==> r.out == Ok(env.answer(r.st.log).value)
    ensures var r := Call(env, st, id, xs);
      env.answer(r.st.log).Raises? ==> r.out == Err(Raised(env.answer(r.st.log).code))
  {
  }
}

=== FILE: php.dfy ===
/**
  The two pieces of PHP's scalar semantics the container depends on:
  `is_numeric` on strings (a numeric string is returned as a literal source)
  and the decimal rendering of an integer (an integer used as an array key
  addresses the same slot as its decimal string).
 */
module Php {

  predicate IsDigit(c: char) {
    '0' <= c <= '9'
  }

  predicate AllDigits(s: string) {
    forall i :: 0 <= i < |s| ==> IsDigit(s[i])
  }

  /** The whitespace PHP allows around a numeric string: " \t\n\r\v\f". */
  predicate IsBlank(c: char) {
    c == ' ' || c == '\t' || c == '\n' || c == '\r' || c == '\U{000B}' || c == '\U{000C}'
  }

  function TrimLeading(s: string): (r: string)
    ensures |r| <= |s| && r == s[|s| - |r|..]
    ensures |r| > 0 ==> !IsBlank(r[0])
    ensures forall i :: 0 <= i < |s| - |r| ==> IsBlank(s[i])
  {
    if |s| > 0 && IsBlank(s[0]) then TrimLeading(s[1..]) else s
  }

  function TrimTrailing(s: string): (r: string)
    ensures |r| <= |s| && r == s[..|r|]
    ensures |r| > 0 ==> !IsBlank(r[|r| - 1])
    ensures forall i :: |r| <= i < |s| ==> IsBlank(s[i])
  {
    if |s| > 0 && IsBlank(s[|s| - 1]) then TrimTrailing(s[..|s| - 1]) else s
  }

  /** The position of the first decimal point, or |s| when there is none. */
  function PointIndex(s: string): (k: nat)
    ensures k <= |s| && (k < |s| ==> s[k] == '.')
    ensures forall i :: 0 <= i < k ==> s[i] != '.'
  {
    if s == [] then 0 else if s[0] == '.' then 0 else 1 + PointIndex(s[1..])
  }

  /** The position of the first exponent marker `e` or `E`, or |s| when there is none. */
  function ExpIndex(s: string): (k: nat)
    ensures k <= |s| && (k < |s| ==> s[k] == 'e' || s[k] == 'E')
    ensures forall i :: 0 <= i < k ==> s[i] != 'e' && s[i] != 'E'
  {
    if s == [] then 0 else if s[0] == 'e' || s[0] == 'E' then 0 else 1 + ExpIndex(s[1..])
  }

  /** LNUM or DNUM of the PHP lexer: digits, optionally with one decimal point,
      at least one digit. A point can only be the first one, since the digits
      before it contain none. */
  predicate IsMantissa(m: string) {
    var k := PointIndex(m);
    if k == |m| then |m| > 0 && AllDigits(m)
    else |m| > 1 && AllDigits(m[..k]) && AllDigits(m[k + 1..])
  }

  /** The part after `e`/`E`: an optional sign and at least one digit. */
  predicate IsExponent(x: string) {
    var y := if |x| > 0 && (x[0] == '+' || x[0] == '-') then x[1..] else x;
    |y| > 0 && AllDigits(y)
  }

  /** A mantissa, optionally followed by an exponent. The marker can only be
      the first one, since a mantissa contains none. */
  predicate IsUnsignedNumber(u: string) {
    var k := ExpIndex(u);
    if k == |u| then IsMantissa(u) else IsMantissa(u[..k]) && IsExponent(u[k + 1..])
  }

  /** The same grammar stated without search: some split of the string matches it. */
  predicate MantissaSpec(m: string) {
    || (|m| > 0 && AllDigits(m))
    || (|m| > 1 && exists k :: 0 <= k < |m| && m[k] == '.' && AllDigits(m[..k]) && AllDigits(m[k + 1..]))
  }

  predicate UnsignedNumberSpec(u: string) {
    || MantissaSpec(u)
    || exists k :: 0 <= k < |u| && (u[k] == 'e' || u[k] == 'E') && MantissaSpec(u[..k]) && IsExponent(u[k + 1..])
  }

  /** `is_numeric` on a string (PHP 8): blanks, an optional sign, a number, blanks. */
  predicate IsNumericString(s: string) {
    var t := TrimTrailing(TrimLeading(s));
    var u := if |t| > 0 && (t[0] == '+' || t[0] == '-') then t[1..] else t;
    IsUnsignedNumber(u)
  }

  lemma MantissaMatchesSpec(m: string)
    ensures IsMantissa(m) <==> MantissaSpec(m)
  {
    var k := PointIndex(m);
    if k < |m| {
      assert !AllDigits(m) by { assert !IsDigit(m[k]); }
      if MantissaSpec(m) {
        var j :| 0 <= j < |m| && m[j] == '.' && AllDigits(m[..j]) && AllDigits(m[j + 1..]);
      }
    }
  }

  /** A mantissa never contains an exponent marker. */
  lemma MantissaHasNoMarker(m: string, i: int)
    requires MantissaSpec(m) && 0 <= i < |m|
    ensures m[i] != 'e' && m[i] != 'E'
  {
    if !(|m| > 0 && AllDigits(m)) {
      var j :| 0 <= j < |m| && m[j] == '.' && AllDigits(m[..j]) && AllDigits(m[j + 1..]);
      if i < j { assert m[..j][i] == m[i]; }
      else if i > j { assert m[j + 1..][i - j - 1] == m[i]; }
    }
  }

  /** The search-based grammar accepts exactly the strings the declarative one does. */
  lemma UnsignedNumberMatchesSpec(u: string)
    ensures IsUnsignedNumber(u) <==> UnsignedNumberSpec(u)
  {
    MantissaMatchesSpec(u);
    if IsUnsignedNumber(u) {
      UnsignedNumberSound(u);
    }
    if UnsignedNumberSpec(u) {
      UnsignedNumberComplete(u);
    }
  }

  lemma UnsignedNumberSound(u: string)
    requires IsUnsignedNumber(u)
    ensures UnsignedNumberSpec(u)
  {
    var k := ExpIndex(u);
    MantissaMatchesSpec(u);
    if k < |u| {
      MantissaMatchesSpec(u[..k]);
    }
  }

  lemma UnsignedNumberComplete(u: string)
    requires UnsignedNumberSpec(u)
    ensures IsUnsignedNumber(u)
  {
    var k := ExpIndex(u);
    MantissaMatchesSpec(u);
    if MantissaSpec(u) {
      if k < |u| {
        MantissaHasNoMarker(u, k);
      }
    } else {
      var j :| 0 <= j < |u| && (u[j] == 'e' || u[j] == 'E') && MantissaSpec(u[..j]) && IsExponent(u[j + 1..]);
      assert k <= j;
      if k < j {
        MantissaHasNoMarker(u[..j], k);
      }
      MantissaMatchesSpec(u[..k]);
    }
  }

  /** A numeric string starts, after its leading blanks, with a digit, a sign or a point. */
  lemma NumericStart(s: string)
    requires IsNumericString(s)
    ensures var t := TrimLeading(s); |t| > 0 && (IsDigit(t[0]) || t[0] == '+' || t[0] == '-' || t[0] == '.')
  {
    var l := TrimLeading(s);
    var t := TrimTrailing(l);
    if |t| > 0 && !(t[0] == '+' || t[0] == '-') {
      var k := ExpIndex(t);
      if k == |t| {
        MantissaStart(t);
      } else {
        MantissaStart(t[..k]);
      }
      assert l[0] == t[0];
    }
  }

  lemma MantissaStart(m: string)
    requires IsMantissa(m)
    ensures |m| > 0 && (IsDigit(m[0]) || m[0] == '.')
  {
    var k := PointIndex(m);
    if k < |m| && k > 0 {
      assert m[..k][0] == m[0];
    }
  }

  /** Hence a string that starts with a letter is never numeric. */
  lemma LetterFirstNotNumeric(s: string)
    requires |s| > 0 && ('A' <= s[0] <= 'Z' || 'a' <= s[0] <= 'z')
    ensures !IsNumericString(s)
  {
    assert !IsBlank(s[0]) && !IsDigit(s[0]);
    assert TrimLeading(s) == s;
    if IsNumericString(s) {
      NumericStart(s);
    }
  }

  function DigitChar(d: nat): (c: char)
    requires d < 10
    ensures IsDigit(c) && c as int - '0' as int == d
  {
    ('0' as int + d) as char
  }

  function Digits(n: nat): (s: string)
    decreases n
  {
    if n < 10 then [DigitChar(n)] else Digits(n / 10) + [DigitChar(n % 10)]
  }

  /** The value of a string of decimal digits. */
  function DigitsValue(s: string): nat
    requires AllDigits(s)
  {
    if s == [] then 0 else DigitsValue(s[..|s| - 1]) * 10 + (s[|s| - 1] as int - '0' as int)
  }

  /** How PHP prints an integer, which is also how an integer array key reads as a string key. */
  function IntToDecimal(i: int): string {
    if i < 0 then "-" + Digits(-i) else Digits(i)
  }

  /** PHP's `(int)` of a float: truncation toward zero. */
  function Truncate(x: real): int {
    if x >= 0.0 then x.Floor else -((-x).Floor)
  }

  lemma {:induction false} DigitsRoundTrip(n: nat)
    ensures |Digits(n)| > 0 && AllDigits(Digits(n))
    ensures DigitsValue(Digits(n)) == n
    decreases n
  {
    if n >= 10 {
      DigitsRoundTrip(n / 10);
      var s := Digits(n);
      assert s[..|s| - 1] == Digits(n / 10);
    }
  }

  /** Distinct integers never share an array key. */
  lemma DecimalInjective(i: int, j: int)
    requires IntToDecimal(i) == IntToDecimal(j)
    ensures i == j
  {
    DigitsRoundTrip(if i < 0 then -i else i);
    DigitsRoundTrip(if j < 0 then -j else j);
    var a, b := IntToDecimal(i), IntToDecimal(j);
    assert a[0] == '-' <==> i < 0;
    assert b[0] == '-' <==> j < 0;
    if i < 0 {
      assert a[1..] == Digits(-i) && b[1..] == Digits(-j);
    }
  }

  /** A non-empty run of digits is an unsigned number. */
  lemma DigitsAreNumber(d: string)
    requires |d| > 0 && AllDigits(d)
    ensures IsUnsignedNumber(d)
  {
  }

  /** A string without blanks at its ends is left alone by trimming. */
  lemma TrimKeeps(s: string)
    requires |s| > 0 && !IsBlank(s[0]) && !IsBlank(s[|s| - 1])
    ensures TrimTrailing(TrimLeading(s)) == s
  {
  }

  /** Every printed integer is a numeric string. */
  lemma DecimalIsNumeric(i: int)
    ensures IsNumericString(IntToDecimal(i))
  {
    var d := Digits(if i < 0 then -i else i);
    DigitsRoundTrip(if i < 0 then -i else i);
    DigitsAreNumber(d);
    var s := IntToDecimal(i);
    assert s[|s| - 1] == d[|d| - 1];
    TrimKeeps(s);
    if i < 0 {
      assert s[1..] == d;
    } else {
      assert s == d;
    }
  }
}

=== FILE: registry.dfy ===
/**
  The container's state (src/Container.php:11-17): four registration maps, the
  cache of resolved values, the id of the most recent cache-missing `get`, and
  the history of calls into user code. Registration, `has` and `getSource`.
 */
module Registry {
  import opened Values

  /** The four registration maps, written only by `set`, `factory`, `file`, `alias`. */
  datatype Registry = Registry(
    definitions: map<string, Value>,
    factories: map<string, Value>,
    files: map<string, Value>,
    aliases: map<string, Value>)

  /** `processed` is the typed property `processedResolved`: None until the first
      cache-missing `get` assigns it. `log` is the history of calls into user code. */
  datatype State = State(
    reg: Registry,
    resolved: map<string, Value>,
    processed: Option<string>,
    log: seq<Event>)

  /** PHP's `isset($m[$k])`: the key is present with a non-null value. */
  predicate Present(m: map<string, Value>, k: string) {
    k in m && m[k] != VNull
  }

  /** `m2` is `m1` with key `k` bound to `v` and every other key as before. */
  predicate Overwrites(m1: map<string, Value>, m2: map<string, Value>, k: string, v: Value) {
    && k in m2 && m2[k] == v
    && (forall j :: j in m2 && j != k ==> j in m1 && m1[j] == m2[j])
    && (forall j :: j in m1 && j != k ==> j in m2)
  }

  /** The constructor: the container is its own entry under its class and its interface. */
  function New(): (st: State)
    ensures forall id :: Present(st.resolved, id) <==> id == ContainerClass || id == ContainerInterface
    ensures forall id :: id in st.resolved ==> st.resolved[id] == VContainer
    ensures st.reg == Registry(map[], map[], map[], map[]) && st.processed == None && st.log == []
  {
    State(Registry(map[], map[], map[], map[]),
          map[ContainerClass := VContainer, ContainerInterface := VContainer], None, [])
  }

  function Set(st: State, id: string, source: Value): (r: State)
    ensures Overwrites(st.reg.definitions, r.reg.definitions, id, source)
    ensures r == st.(reg := st.reg.(definitions := r.reg.definitions))
  {
    st.(reg := st.reg.(definitions := st.reg.definitions[id := source]))
  }

  function Factory(st: State, id: string, source: Value): (r: State)
    ensures Overwrites(st.reg.factories, r.reg.factories, id, source)
    ensures r == st.(reg := st.reg.(factories := r.reg.factories))
  {
    st.(reg := st.reg.(factories := st.reg.factories[id := source]))
  }

  function File(st: State, id: string, filename: Value): (r: State)
    ensures Overwrites(st.reg.files, r.reg.files, id, filename)
    ensures r == st.(reg := st.reg.(files := r.reg.files))
  {
    st.(reg := st.reg.(files := st.reg.files[id := filename]))
  }

  function Alias(st: State, id: string, target: Value): (r: State)
    ensures Overwrites(st.reg.aliases, r.reg.aliases, id, target)
    ensures r == st.(reg := st.reg.(aliases := r.reg.aliases))
  {
    st.(reg := st.reg.(aliases := st.reg.aliases[id := target]))
  }

  /** Some registration map holds a non-null entry for `id`. */
  predicate Registered(reg: Registry, id: string) {
    Present(reg.definitions, id) || Present(reg.factories, id) || Present(reg.files, id) || Present(reg.aliases, id)
  }

  /** `has`: five `isset` checks, so null entries count as absent. */
  predicate Has(st: State, id: string) {
    Present(st.resolved, id) || Registered(st.reg, id)
  }

  /** The key `getSource` looks up: one alias hop when the alias entry is set,
      None when the alias target is not a valid array key. */
  function Target(reg: Registry, id: string): (k: Option<string>)
    ensures !Present(reg.aliases, id) ==> k == Some(id)
    ensures Present(reg.aliases, id) && reg.aliases[id].VStr? ==> k == Some(reg.aliases[id].s)
  {
    if Present(reg.aliases, id) then KeyOf(reg.aliases[id]) else Some(id)
  }

  /** What `getSource` produces: the source with the `isFactory` flag, or the
      exception it raises. */
  datatype Lookup = Found(source: Value, isFactory: bool) | Failed(error: Error)

  /** `getSource`: follow at most one alias, then prefer the definition, then the
      factory, then the file. A file name that is not a string or a scalar makes
      `file_exists` throw, and an exception thrown by the included file escapes
      unwrapped. A key in none of the three leaves `$source` undefined, which
      reads as null. */
  function GetSource(env: Env, reg: Registry, id: string): (r: Lookup)
    ensures r.Failed? ==> r.error == TypeError || r.error.ContainerError? || r.error.Raised?
    ensures r.Failed? && r.error.Raised? ==> Target(reg, id).Some? && Target(reg, id).value in reg.files
    ensures r.Found? && r.isFactory ==> Target(reg, id).Some?
  {
    match Target(reg, id)
    case None => Failed(TypeError)
    case Some(k) =>
      if k in reg.definitions then Found(reg.definitions[k], false)
      else if k in reg.factories then Found(reg.factories[k], true)
      else if k in reg.files then
        // file_exists takes a string: arrays and objects are a TypeError
        if KeyOf(reg.files[k]).None? then Failed(TypeError)
        else if reg.files[k] !in env.load then Failed(ContainerError(FileMissing(k)))
        else match env.load[reg.files[k]]
          case Normal(v) => Found(v, false)
          case Raises(c) => Failed(Raised(c))
      else Found(VNull, false)
  }
}

=== FILE: registry_props.dfy ===
/**
  Properties of registration, `has` and `getSource` (src/Container.php:19-43,
  213-259).
 */
module RegistryProps {
  import opened Values
  import opened Registry

  /** `set` changes `has` for its own id only, and a non-null source makes it present. */
  lemma SetKeepsOtherIds(st: State, id: string, source: Value, k: string)
    ensures k != id ==> (Has(Set(st, id, source), k) <==> Has(st, k))
    ensures source != VNull ==> Has(Set(st, id, source), id)
  {
  }

  /** The same for `factory`, `file` and `alias`. */
  lemma RegisterKeepsOtherIds(st: State, id: string, v: Value, k: string)
    ensures k != id ==> (Has(Factory(st, id, v), k) <==> Has(st, k))
    ensures k != id ==> (Has(File(st, id, v), k) <==> Has(st, k))
    ensures k != id ==> (Has(Alias(st, id, v), k) <==> Has(st, k))
    ensures v != VNull ==> Has(Factory(st, id, v), id) && Has(File(st, id, v), id) && Has(Alias(st, id, v), id)
  {
  }

  /** A null registration leaves `has` false unless something else holds the id. */
  lemma NullEntryIsAbsent(st: State, id: string)
    requires !Has(st, id)
    ensures !Has(Set(st, id, VNull), id) && !Has(Factory(st, id, VNull), id)
    ensures !Has(File(st, id, VNull), id) && !Has(Alias(st, id, VNull), id)
  {
  }

  /** The constructor makes the container present under exactly two ids. */
  lemma NewHasOnlySelf(id: string)
    ensures Has(New(), id) <==> id == ContainerClass || id == ContainerInterface
  {
  }

  /** At most one alias hop: when the alias target has no definition, factory or
      file, the source is null, whatever alias the target itself carries. */
  lemma OneAliasHop(env: Env, reg: Registry, id: string, t: string)
    requires Present(reg.aliases, id) && reg.aliases[id] == VStr(t)
    requires t !in reg.definitions && t !in reg.factories && t !in reg.files
    ensures GetSource(env, reg, id) == Found(VNull, false)
  {
  }

  /** The alias entry shadows every other registration of the same id. */
  lemma AliasShadowsOwnEntries(env: Env, reg: Registry, id: string, t: string, v: Value)
    requires Present(reg.aliases, id) && reg.aliases[id] == VStr(t) && t != id
    ensures GetSource(env, reg.(definitions := reg.definitions[id := v]), id) == GetSource(env, reg, id)
  {
  }

  /** An alias whose target is not a valid array key makes array_key_exists throw. */
  lemma AliasToArrayIsTypeError(env: Env, reg: Registry, id: string, items: seq<Value>)
    requires id in reg.aliases && reg.aliases[id] == VArray(items)
    ensures GetSource(env, reg, id) == Failed(TypeError)
  {
  }

  /** Definition over factory over file, with `isFactory` raised exactly on the factory branch. */
  lemma SourcePrecedence(env: Env, reg: Registry, id: string, k: string)
    requires Target(reg, id) == Some(k)
    ensures k in reg.definitions ==> GetSource(env, reg, id) == Found(reg.definitions[k], false)
    ensures k !in reg.definitions && k in reg.factories ==> GetSource(env, reg, id) == Found(reg.factories[k], true)
    ensures k !in reg.definitions && k !in reg.factories && k in reg.files ==>
      GetSource(env, reg, id) == (if KeyOf(reg.files[k]).None? then Failed(TypeError)
                                  else if reg.files[k] !in env.load then Failed(ContainerError(FileMissing(k)))
                                  else if env.load[reg.files[k]].Normal? then Found(env.load[reg.files[k]].value, false)
                                  else Failed(Raised(env.load[reg.files[k]].code)))
    ensures GetSource(env, reg, id).Found? && GetSource(env, reg, id).isFactory <==> k !in reg.definitions && k in reg.factories
  {
  }

  /** A file registered under an array name cannot be checked: `file_exists`
      rejects the array with a TypeError. */
  lemma ArrayFileNameIsTypeError(env: Env, reg: Registry, id: string, items: seq<Value>)
    requires !Present(reg.aliases, id) && id !in reg.definitions && id !in reg.factories
    requires id in reg.files && reg.files[id] == VArray(items)
    ensures GetSource(env, reg, id) == Failed(TypeError)
  {
  }

  /** An exception thrown while including a registered file escapes
      `getSource` as it is: no catch surrounds the `include`. */
  lemma IncludeThrowEscapes(env: Env, reg: Registry, id: string, f: Value, c: nat)
    requires !Present(reg.aliases, id) && id !in reg.definitions && id !in reg.factories
    requires id in reg.files && reg.files[id] == f && KeyOf(f).Some?
    requires f in env.load && env.load[f] == Raises(c)
    ensures GetSource(env, reg, id) == Failed(Raised(c))
  {
  }
}

=== FILE: scenarios.dfy ===
/**
  Concrete runs of the engine that mirror the repository's tests, on a small
  runtime. Where this revision of the container disagrees with a test (the
  tests were written for a later API) the lemma states what this revision does.
 */
module Scenarios {
  import opened Values
  import opened Registry
  import opened Engine
  import BinderProps
  import EngineProps

  const Foo: string := "Tests\\ExampleClasses\\Foo"
  const FooInterface: string := "Tests\\ExampleClasses\\FooInterface"
  const Bar: string := "Tests\\ExampleClasses\\Bar"
  const BarInterface: string := "Tests\\ExampleClasses\\BarInterface"

  /** How often `target` occurs in a history of calls. */
  function Count(h: seq<Event>, target: Value): nat {
    if h == [] then 0
    else Count(h[..|h| - 1], target) + (if h[|h| - 1].Invoked? && h[|h| - 1].target == target then 1 else 0)
  }

  /** User code that behaves like the tests' `static $i` counters: the n-th
      call of a closure returns n - 1. Constructors always succeed. */
  function Counter(h: seq<Event>): Reply {
    if h != [] && h[|h| - 1].Invoked? then Normal(VInt(Count(h, h[|h| - 1].target) - 1)) else Normal(VNull)
  }

  /** Foo has no constructor; Bar's constructor takes a FooInterface. Interfaces
      are not classes. */
  function TestRuntime(): Env {
    Env(map[Foo := ClassInfo(true, None),
            Bar := ClassInfo(true, Some([Param("foo", FooInterface, None, false)]))],
        map[], {(Foo, "staticMethod")}, {(Foo, "notStaticMethod")}, {}, map[], Counter)
  }

  /** testScalar: a plain string comes back as registered. */
  lemma ScalarRoundTrip()
    ensures Get(TestRuntime(), 0, Set(New(), "test", VStr("test123")), "test", map[]).out == Ok(VStr("test123"))
  {
    WordIsLiteral(TestRuntime(), "test123");
    EngineProps.LiteralCachedEvenForFactory(TestRuntime(), 0, Set(New(), "test", VStr("test123")), "test", map[], VStr("test123"), false);
  }

  /** testSingleton: a closure registered with `set` runs once. */
  lemma SingletonClosure(env: Env, st: State)
    requires env == TestRuntime() && st == Set(New(), "test", VClosure(1, []))
    ensures var r1 := Get(env, 0, st, "test", map[]);
      var r2 := Get(env, 0, r1.st, "test", map[]);
      r1.out == Ok(VInt(0)) && r2.out == Ok(VInt(0)) && |r2.st.log| == 1
  {
    var e := Invoked(VClosure(1, []), []);
    var st1 := st.(processed := Some("test"));
    assert Bind(env, 0, st1, [], map[], None) == Step(Ok([]), st1);
    assert Count([e], VClosure(1, [])) == 1;
    assert env.answer(st1.log + [e]) == Normal(VInt(0));
    EngineProps.DefinitionClosureCachesOnce(env, 0, st, "test", map[], 1, []);
    EngineProps.SingletonStable(env, 0, 0, st, "test", map[], map[]);
  }

  /** testFactory: a factory closure runs on every `get`; its parameter typed
      ContainerInterface receives the container from the cache. */
  lemma FactoryClosure()
    ensures var f := VClosure(2, [Param("container", ContainerInterface, None, false)]);
      var st := Factory(New(), "test", f);
      var r1 := Get(TestRuntime(), 1, st, "test", map[]);
      var r2 := Get(TestRuntime(), 1, r1.st, "test", map[]);
      && r1.out == Ok(VInt(0)) && r2.out == Ok(VInt(1))
      && r2.st.log == [Invoked(f, [VContainer]), Invoked(f, [VContainer])]
      && "test" !in r2.st.resolved
  {
    var env := TestRuntime();
    var p := Param("container", ContainerInterface, None, false);
    var f := VClosure(2, [p]);
    var st := Factory(New(), "test", f);
    var st1 := st.(processed := Some("test"));
    assert Get(env, 0, st1, ContainerInterface, map[]) == Step(Ok(VContainer), st1);
    assert [p][1..] == [];
    assert Bind(env, 1, st1, [], map[], Some(ContainerInterface)) == Step(Ok([]), st1);
    assert [VContainer] + [] == [VContainer];
    assert Bind(env, 1, st1, [p], map[], None) == Step(Ok([VContainer]), st1);
    var h1 := [Invoked(f, [VContainer])];
    assert Count(h1, f) == 1;
    var r1 := Get(env, 1, st, "test", map[]);
    assert r1.st == st1.(log := h1);
    var st2 := r1.st;
    assert Get(env, 0, st2, ContainerInterface, map[]) == Step(Ok(VContainer), st2);
    assert Bind(env, 1, st2, [], map[], Some(ContainerInterface)) == Step(Ok([]), st2);
    assert Bind(env, 1, st2, [p], map[], None) == Step(Ok([VContainer]), st2);
    var h2 := h1 + [Invoked(f, [VContainer])];
    assert h2[..|h2| - 1] == h1;
    assert Count(h2, f) == 2;
  }

  /** The registry of testInvokeClassWithDependance. */
  function DependencyState(): State {
    Set(Set(New(), FooInterface, VStr(Foo)), BarInterface, VStr(Bar))
  }

  /** A registered class name classifies as a class. */
  lemma ClassNameIsClass(env: Env, cls: string)
    requires |cls| > 0 && 'A' <= cls[0] <= 'Z' && cls in env.classes
    ensures Classify(env, VStr(cls)) == ClassName
  {
    Php.LetterFirstNotNumeric(cls);
    assert !IsNumeric(VStr(cls));
  }

  /** A string that starts with a letter and names no class or function is a literal. */
  lemma WordIsLiteral(env: Env, s: string)
    requires |s| > 0 && ('A' <= s[0] <= 'Z' || 'a' <= s[0] <= 'z') && s !in env.classes && s !in env.functions
    ensures Classify(env, VStr(s)) == Literal
  {
    Php.LetterFirstNotNumeric(s);
    assert !IsNumeric(VStr(s));
  }

  /** testInvokeClass: FooInterface registered as Foo yields a Foo. */
  lemma ClassWithoutDependency()
    ensures Get(TestRuntime(), 0, Set(New(), FooInterface, VStr(Foo)), FooInterface, map[]).out == Ok(VObject(Foo, 0))
  {
    ClassNameIsClass(TestRuntime(), Foo);
    EngineProps.ClassWithoutCtorResolves(TestRuntime(), 0, Set(New(), FooInterface, VStr(Foo)), FooInterface, map[], Foo);
  }

  /** Inside the `get` of BarInterface, the nested `get` of FooInterface
      builds a Foo first and caches it. */
  lemma FooBuiltForBar(env: Env, fuel: nat, st: State)
    requires env == TestRuntime() && st == DependencyState().(processed := Some(BarInterface))
    ensures Get(env, fuel, st, FooInterface, map[]) ==
      Step(Ok(VObject(Foo, 0)),
           st.(processed := Some(FooInterface), log := [Constructed(Foo, [])],
               resolved := st.resolved[FooInterface := VObject(Foo, 0)]))
  {
    assert st.log == [] && FooInterface !in st.resolved && Has(st, FooInterface);
    ClassNameIsClass(env, Foo);
    assert GetSource(env, st.reg, FooInterface) == Found(VStr(Foo), false);
    EngineProps.ClassWithoutCtorResolves(env, fuel, st, FooInterface, map[], Foo);
  }

  /** testInvokeClassWithDependance: Bar is built with a Foo, which is built
      first and cached under FooInterface. */
  lemma ClassWithDependency(env: Env, fuel: nat, st: State)
    requires env == TestRuntime() && st == DependencyState()
    ensures var r := Get(env, fuel + 1, st, BarInterface, map[]);
      && r.out == Ok(VObject(Bar, 1))
      && r.st.log == [Constructed(Foo, []), Constructed(Bar, [VObject(Foo, 0)])]
      && r.st.resolved == New().resolved[FooInterface := VObject(Foo, 0)][BarInterface := VObject(Bar, 1)]
  {
    var p := Param("foo", FooInterface, None, false);
    var st1 := st.(processed := Some(BarInterface));
    FooBuiltForBar(env, fuel, st1);
    assert st.resolved == New().resolved;
    assert BarInterface !in st.resolved && Has(st, BarInterface) && Has(st, FooInterface);
    ClassNameIsClass(env, Bar);
    assert GetSource(env, st.reg, BarInterface) == Found(VStr(Bar), false);
    var g := Get(env, fuel, st1, FooInterface, map[]);
    var e2 := Constructed(Bar, [g.out.value]);
    assert g.st.log + [e2] == [Constructed(Foo, []), Constructed(Bar, [VObject(Foo, 0)])];
    assert env.answer(g.st.log + [e2]) == Normal(VNull);
    EngineProps.ClassWithOneDependency(env, fuel + 1, st, BarInterface, map[], Bar, p);
  }

  /** testInvokeFunctionWithParamaters: named arguments first, then the default. */
  lemma NamedArgumentsAndDefault()
    ensures var ps := [Param("arg1", "string", None, false), Param("arg2", "object", None, false),
                       Param("arg3", "", Some(VStr("value3")), true)];
      var args := map["arg1" := VStr("value1"), "arg2" := VObject("stdClass", 7)];
      var r := Get(TestRuntime(), 0, Set(New(), "test", VClosure(3, ps)), "test", args);
      r.st.log == [Invoked(VClosure(3, ps), [VStr("value1"), VObject("stdClass", 7), VStr("value3")])]
  {
    var env := TestRuntime();
    var ps := [Param("arg1", "string", None, false), Param("arg2", "object", None, false),
               Param("arg3", "", Some(VStr("value3")), true)];
    var args := map["arg1" := VStr("value1"), "arg2" := VObject("stdClass", 7)];
    var st1 := Set(New(), "test", VClosure(3, ps)).(processed := Some("test"));
    assert ps[1..][1..][1..] == [];
    assert BinderProps.FirstStop(ps, args) == 3;
    BinderProps.BindPure(env, 0, st1, ps, args, None);
    assert BinderProps.PlainBind(ps, args) == [VStr("value1"), VObject("stdClass", 7), VStr("value3")];
    assert GetSource(env, st1.reg, "test") == Found(VClosure(3, ps), false);
    assert Classify(env, VClosure(3, ps)) == Callable;
  }

  /** testResolveEmptyParamWithoutError, through `get`: `string $name = null`
      has a default, so null is passed. */
  lemma NullDefaultPassed()
    ensures var ps := [Param("name", "string", Some(VNull), true)];
      var r := Get(TestRuntime(), 0, Set(New(), "test", VClosure(4, ps)), "test", map[]);
      r.st.log == [Invoked(VClosure(4, ps), [VNull])]
  {
    var env := TestRuntime();
    var ps := [Param("name", "string", Some(VNull), true)];
    var st1 := Set(New(), "test", VClosure(4, ps)).(processed := Some("test"));
    assert ps[1..] == [];
    assert [VNull] + [] == [VNull];
    assert Bind(env, 0, st1, ps, map[], None) == Step(Ok([VNull]), st1);
  }

  /** A closure `function ($x = 0, ...$rest)`: the default of `$x` is passed,
      then the variadic parameter, optional and without a default, ends the
      argument list, so nothing is passed for it. */
  lemma VariadicTruncates()
    ensures var ps := [Param("x", "", Some(VInt(0)), true), Param("rest", "", None, true)];
      var r := Get(TestRuntime(), 0, Set(New(), "test", VClosure(8, ps)), "test", map[]);
      r.st.log == [Invoked(VClosure(8, ps), [VInt(0)])]
  {
    var env := TestRuntime();
    var ps := [Param("x", "", Some(VInt(0)), true), Param("rest", "", None, true)];
    var st1 := Set(New(), "test", VClosure(8, ps)).(processed := Some("test"));
    assert Bind(env, 0, st1, ps[1..], map[], None) == Step(Ok([]), st1);
    assert [VInt(0)] + [] == [VInt(0)];
    assert Bind(env, 0, st1, ps, map[], None) == Step(Ok([VInt(0)]), st1);
  }

  /** The parameters and registry of test3ResolveParams. */
  function CircularParams(): seq<Param> {
    [Param("param1", "string", None, false), Param("param2", "string", None, false),
     Param("param3", "string", Some(VStr("")), true)]
  }

  function CircularState(): State {
    Set(Set(Set(New(), "string", VStr("StringValue")), "param2", VStr("NameValue")), "test", VClosure(5, CircularParams()))
  }

  /** In that state the type `string` is registered as a plain word, which
      `resolve` returns as a literal. */
  lemma StringValueSource()
    ensures var st := CircularState();
      && GetSource(TestRuntime(), st.reg, "string") == Found(VStr("StringValue"), false)
      && Classify(TestRuntime(), VStr("StringValue")) == Literal
      && Has(st, "string") && "string" !in st.resolved
  {
    WordIsLiteral(TestRuntime(), "StringValue");
  }

  lemma CircularBinding()
    ensures Bind(TestRuntime(), 1, CircularState().(processed := Some("test")), CircularParams(), map["param3" := VStr("3")], None).out
      == Err(ContainerError(Circular("string")))
  {
    var env := TestRuntime();
    var ps := CircularParams();
    var st1 := CircularState().(processed := Some("test"));
    var p1, p2, p3 := ps[0], ps[1], ps[2];
    assert ps == [p1, p2] + [p3];
    StringValueSource();
    assert st1.reg == CircularState().reg && st1.resolved == CircularState().resolved;
    assert Injected(p1, map["param3" := VStr("3")]) && Injected(p2, map["param3" := VStr("3")]);
    BinderProps.LiteralFirstDependencyBlocksSecond(env, 1, st1, p1, p2, [p3], map["param3" := VStr("3")]);
  }

  /** test3ResolveParams, through `get`: the second parameter fails the check at
      line 194, because the `get` of the first one set processedResolved to
      "string", the type the local `$name` still holds. */
  lemma SecondStringParameterIsCircular()
    ensures Get(TestRuntime(), 1, CircularState(), "test", map["param3" := VStr("3")]).out
      == Err(ContainerError(Wrapped("test", ContainerError(Circular("string")))))
  {
    CircularBinding();
    assert GetSource(TestRuntime(), CircularState().reg, "test") == Found(VClosure(5, CircularParams()), false);
    EngineProps.ClosureBindErrorRewrapped(TestRuntime(), 1, CircularState(), "test", map["param3" := VStr("3")], 5, CircularParams(), false);
  }

  /** testAlias2: an alias of an alias is not followed; this revision returns null. */
  lemma TwoHopAliasIsNull()
    ensures var st := Alias(Alias(Set(New(), "foo", VArray([VStr(Foo), VStr("staticMethod")])), "alias1", VStr("foo")),
                            "alias2", VStr("alias1"));
      Get(TestRuntime(), 0, st, "alias2", map[]).out == Ok(VNull)
  {
  }

  /** testAlias1: the static-method array reaches line 161 and fails. */
  lemma StaticMethodArrayFails()
    ensures var st := Alias(Set(New(), "foo", VArray([VStr(Foo), VStr("staticMethod")])), "alias1", VStr("foo"));
      Get(TestRuntime(), 0, st, "alias1", map[]).out == Err(ContainerError(Wrapped("alias1", TypeError)))
  {
  }

  /** testCall: a file yielding a closure is called with positional arguments. */
  lemma CallFileClosure()
    ensures var env := TestRuntime().(load := map[VStr("file2.php") := Normal(VClosure(6, []))]);
      var r := Call(env, File(New(), "test", VStr("file2.php")), "test", [VStr("a1"), VStr("a2")]);
      r.st.log == [Called(VClosure(6, []), [VStr("a1"), VStr("a2")])]
  {
  }

  /** `call` does not consult the cache: the container's own id, which `get`
      answers, has no source and is "not callable". */
  lemma CallOwnIdNotCallable()
    ensures Call(TestRuntime(), New(), ContainerClass, []).out == Err(ContainerError(NotCallable(ContainerClass)))
  {
  }

  /** testResolveEmptyParamWithError, through the public resolveCallable
      before any `get`: the check at line 194 reads the typed property
      processedResolved before it was ever assigned, which is an Error and not
      a ContainerException. */
  lemma ResolveCallableBeforeAnyGet()
    ensures ResolveCallable(TestRuntime(), 1, New(), VClosure(7, [Param("name", "string", None, false)]), map[]).out
      == Err(Uninitialized)
  {
  }
}

=== FILE: values.dfy ===
/**
  The PHP values the container stores and hands out, the reflection and
  runtime facts it asks about (as an abstract environment), and the
  exceptions it raises.
 */
module Values {
  import opened Php

  datatype Option<+T> = None | Some(value: T)

  /** A formal parameter as reflection reports it. `typ` is the declared type
      cast to a string, `""` when the parameter is untyped. */
  datatype Param = Param(name: string, typ: string, default: Option<Value>, optional: bool)

  /** A PHP value. Arrays are lists (an array with other keys is never callable,
      which is all the container asks of it). `VObject` is an instance of any
      class other than `Closure`; closures are `VClosure`, identified by a tag
      and carrying the parameter list reflection reports for them. */
  datatype Value =
    | VNull
    | VBool(b: bool)
    | VInt(i: int)
    | VFloat(x: real)
    | VStr(s: string)
    | VArray(items: seq<Value>)
    | VObject(cls: string, handle: nat)
    | VClosure(tag: nat, params: seq<Param>)
    | VContainer

  const ContainerClass: string := "YRV\\Container\\Container"
  const ContainerInterface: string := "Psr\\Container\\ContainerInterface"

  /** One call into user code, as recorded in the invocation history. */
  datatype Event =
    | Constructed(cls: string, args: seq<Value>)    // ReflectionClass::newInstance
    | Invoked(target: Value, args: seq<Value>)      // ReflectionFunction::invoke
    | Called(target: Value, args: seq<Value>)       // call_user_func

  /** What user code does when called: return a value or throw. */
  datatype Reply = Normal(value: Value) | Raises(code: nat)

  /** Reflection facts about a class: whether it is instantiable and the
      parameters of its constructor, if it declares one. */
  datatype ClassInfo = ClassInfo(instantiable: bool, ctor: Option<seq<Param>>)

  /** The PHP runtime as the container sees it.
      - `classes`: the classes `class_exists` reports (interfaces are not classes);
      - `functions`: the functions `function_exists` reports, with their parameters;
      - `staticMethods`, `instanceMethods`: (class, method) pairs callable from the container;
      - `invokable`: classes with an `__invoke` method;
      - `load`: `file_exists` plus `include`: what including a registered file name
        does, evaluating to a value or throwing;
      - `answer`: what the most recent call of a history of calls into user code does. */
  datatype Env = Env(
    classes: map<string, ClassInfo>,
    functions: map<string, seq<Param>>,
    staticMethods: set<(string, string)>,
    instanceMethods: set<(string, string)>,
    invokable: set<string>,
    load: map<Value, Reply>,
    answer: seq<Event> -> Reply)

  /** The exceptions and errors the container lets escape. */
  datatype Error =
    | NotFound(id: string)                 // NotFoundException
    | ContainerError(cause: Cause)         // ContainerException
    | InvalidArgument                      // \InvalidArgumentException: class not instantiable
    | UndefinedMethod(name: string)        // \Error: call to an undefined method
    | UndefinedFunction(name: string)      // \Error: call to an undefined function
    | ReflectionFailure                    // \ReflectionException: no such function
    | TypeError                            // \TypeError: argument of the wrong type
    | Uninitialized                        // \Error: typed property read before assignment
    | Raised(code: nat)                    // thrown by user code

  /** Why a ContainerException was raised. */
  datatype Cause =
    | NotCallable(id: string)
    | TypeUndefined(id: string)
    | FileMissing(key: string)
    | Circular(id: string)
    | Unbindable(param: string, typ: string)
    | Wrapped(id: string, inner: Error)

  /** `is_numeric`. */
  predicate IsNumeric(v: Value) {
    match v
    case VInt(_) => true
    case VFloat(_) => true
    case VStr(s) => IsNumericString(s)
    case _ => false
  }

  /** `is_object($v) && get_class($v) !== 'Closure'`. */
  predicate IsPlainObject(v: Value) {
    v.VObject? || v.VContainer?
  }

  /** The string key PHP uses when `v` indexes an array, or None when
      `array_key_exists` rejects it with a TypeError. */
  function KeyOf(v: Value): (k: Option<string>)
    ensures k.None? <==> v.VArray? || v.VObject? || v.VClosure? || v.VContainer?
  {
    match v
    case VNull => Some("")
    case VBool(b) => Some(if b then "1" else "0")
    case VInt(i) => Some(IntToDecimal(i))
    case VFloat(x) => Some(IntToDecimal(Truncate(x)))
    case VStr(s) => Some(s)
    case _ => None
  }

  /** A method reference `[target, method]` that `is_callable` accepts. */
  predicate MethodCallable(env: Env, target: Value, m: string) {
    match target
    case VStr(c) => (c, m) in env.staticMethods
    case VObject(c, _) => (c, m) in env.staticMethods || (c, m) in env.instanceMethods
    case VContainer => (ContainerClass, m) in env.staticMethods || (ContainerClass, m) in env.instanceMethods
    case _ => false
  }

  /** A string `"Class::method"` naming a static method. */
  predicate IsStaticMethodString(env: Env, s: string) {
    exists p :: p in env.staticMethods && s == p.0 + "::" + p.1
  }

  /** `is_callable`, evaluated inside the container. */
  predicate IsCallable(env: Env, v: Value) {
    match v
    case VStr(s) => s in env.functions || IsStaticMethodString(env, s)
    case VArray(items) => |items| == 2 && items[1].VStr? && MethodCallable(env, items[0], items[1].s)
    case VObject(c, _) => c in env.invokable
    case VContainer => ContainerClass in env.invokable
    case VClosure(_, _) => true
    case _ => false
  }

  /** No error in the chain of causes is the read of an uninitialised property. */
  predicate NoUninitialized(e: Error) {
    match e
    case Uninitialized => false
    case ContainerError(Wrapped(_, inner)) => NoUninitialized(inner)
    case _ => true
  }
}
